=== FILE: README.md ===
# kamaki Ansible modules: desired-state logic in Dafny

The kamaki Ansible role ships Ansible modules that manage virtual machines,
floating IPs and SSH keypairs on a Synnefo cloud through the kamaki SDK.
Each module reads the declared state from its parameters, discovers the
live resource, issues the SDK calls that close the gap, and reports
`changed` together with the resource. This project models that decision
logic and proves what it promises:

- discovery: an id lookup wins, a 404 means "not found", and otherwise the first match in listing order;
- which mutating calls each state function issues;
- the `changed` flag it reports;
- when it fails, and when an exception escapes it;
- the `PREFIX<n>` naming loop that uploads missing public keys.

The SDK is not modelled. The cloud is abstract:

- A `Snapshot` holds the VM, floating-IP and keypair listings that every read of one run answers from.
- An `Oracle` says which calls raise a `ClientError` (with status and message). It also gives what creating calls return and what a completed wait returns.
- A wait call raises exactly when the oracle gives it an error.
- Every run returns its outcome and the full log of SDK calls it issued, reads and waits included.
- The outcome is one of:
  - `Exit(changed, payload)` for `exit_json`;
  - `Fail(msg, details)` for `fail_json`;
  - `Crash(reason)` for an exception the module does not catch.

Files:

- `base.dfy`: optional values; Python truthiness of optional strings; first match over a listing; substring search.
- `cloud.dfy`: the records, the SDK calls, the oracle and the result types.
- `keyring.dfy`: `upload_keys_to_keyring`. The code in `library/server.py` (lines 89-118) and `library/cyclades.py` (lines 140-169) is the same apart from the client attribute, so every `Keyring` row below holds for both. It is written once as a recursive reference definition and once as the nested loops of the code, and the two are proved equal.
- `server.py` is modelled by `server.dfy`: `discover`, `discover_ip`, `create`, `delete`, `present`, `absent`, `active` and `stopped`.
- `public_ip.py` is modelled by `public_ip.dfy`: `discover`, `reserve`, `next_available`, `present` and `absent`.
- `keypair.py` is modelled by `keypair.dfy`: `discover`, `create`, `present` and `absent`.
- `cyclades.py` is modelled by `cyclades.dfy`: `discover_vm`, `start_vm`, `stop_vm` and `snf_delete_vm`.

Choices where the model follows the code rather than the modules'
docstrings and stated intent:

- `present` on an existing VM reports the VM as discovered. It is not merged with the applied rename (library/server.py:212).
- `present` on an existing VM does not count the floating-IP port as a change. See Findings.
- `upload_keys_to_keyring` avoids only the names of keypairs whose content is in the keys file, not every existing name. See Findings.
- The floating-IP `absent` reports the `wait` flag as `changed`. See Findings.
- The cyclades `stop_vm` crashes when its wait raises, and `start_vm` lets its wait's error escape. See Findings.

## Model

| member | source | states |
|---|---|---|
| Server.ScanByName | library/server.py:68-74 | The name scan: one `list_servers`. A listing error fails with "Could not list VMs". Otherwise the result is the first VM in listing order whose name equals the requested one, or none exactly when no VM has that name. |
| Server.Discover | library/server.py:58-74 | With a truthy id, only the id lookup is issued. A 404 gives no VM without any name scan. Any other error fails with "Error while looking up VM". Without an id it is the name scan. It never mutates. |
| Server.DiscoverIp | library/server.py:76-87 | With a truthy `public_ip_id`, one id lookup: a 404 gives none and another error fails with "Error while looking for ip". Without one, nothing is issued and the result is none. A found IP is in the listing. |
| Server.CreateNetworks | library/server.py:126-132 | The networks list has the private network first when given, then the floating network and address when an IP is found, and nothing else. |
| Server.Create | library/server.py:120-146 | After IP discovery, exactly one `create_server` carrying every parameter and the networks list. It fails exactly when that call errors. With `wait`, the build wait follows the create call, and the VM it returns is reported. The VM as created is reported without `wait`, or when that wait raises. |
| Server.Delete | library/server.py:148-159 | Exactly one `delete_server`. It succeeds exactly when there is no error or the error message contains "Server has been deleted". On success with `wait`, the wait for DELETED follows the delete; the wait never fails it. |
| Server.DeleteToleratesGoneServer | library/server.py:150-154 | A delete error whose message holds "Server has been deleted" at any position is tolerated, as Python's `in` finds it. |
| Server.Ip4s | library/server.py:197 | The VM's IPv4s are exactly the truthy `ipv4` values of its attachments. |
| Server.Rename | library/server.py:171-179 | A rename is issued only when a name is given and differs from the VM's. An error fails with "Failed to changed server name". It reports whether it renamed. |
| Server.ConnectNetwork | library/server.py:181-194 | A private-network port is created only when the network is given and is not among the VM's addresses. Its error fails the run. With `wait`, the port wait follows the accepted `create_port`; it is issued but never consulted. |
| Server.AttachIp | library/server.py:196-211 | An IP port is created only when the IP is found and its address is not among the VM's IPv4s. A create error fails the run. It reports true exactly when it issued the port. |
| Server.Reconcile | library/server.py:170-212 | On an existing VM the run exits exactly when the due rename, network port and IP lookup and port all answer. When it exits, the mutating calls are exactly the due rename, network port and IP port, in that order. A failing run stops at the failing call: its mutating calls are a prefix of the due ones, and all of them but the last answered. The report is the discovered VM with `changed` computed from which were due. |
| Server.StepsStopAtFailure | library/server.py:171-211 | Each `fail_json` of the rename, network and IP steps ends the run: the mutating calls issued are a prefix of the due calls, and every one before the last answered. |
| Server.Present | library/server.py:162-212 | `present` never lets an exception escape: every error ends in `fail_json`. A failed discovery fails the run with no mutating call. |
| Server.PresentCreates | library/server.py:166-169 | With no VM found and the IP lookup answering, exactly one `create_server` with `CreateNetworks` is issued, and the run exits exactly when it is accepted. Success reports `changed`. With `wait`, the payload is the VM the build wait returns. Without `wait`, or when that wait raises, it is the VM as created. |
| Server.PresentUpdates | library/server.py:170-212 | On an existing VM the run exits exactly when every due step answers. Whatever the outcome, the mutating calls are a prefix of the due ones. When it exits, they are exactly the due ones. `changed` holds iff a rename or network port was due. The payload is the discovered VM. |
| Server.PresentIpAttachIsNoChange | library/server.py:196-212 | A concrete run that attaches a floating IP, with nothing else due, exits with `changed` false. The intended version reports `changed` true. |
| Server.PresentIntended | library/server.py:162-212 | With the IP port counted as a change, `present` reports `changed` exactly when it issued a mutating call, on both the create and the update path. A failed discovery fails the run with no mutating call. |
| Server.PresentIntendedAgrees | library/server.py:162-212 | The intended `present` issues the same calls as the code, exits or fails alike and reports the same VM. `changed` differs only by counting an issued floating-IP port. |
| Server.Absent | library/server.py:214-220 | No VM found gives "VM not found", unchanged, with no mutation. Otherwise exactly one `delete_server`, and the run exits iff the delete is accepted, with `changed` true. `changed` holds iff a mutation was issued. |
| Server.PowerOn | library/server.py:226-238 | A VM already in the target status is unchanged with no call. Otherwise exactly one start or shutdown, which fails the run only when it errors. Its success reports `changed` with the waited VM, or the discovered one when the wait raises or is off. With `wait`, the wait for the target status follows the call. |
| Server.Transition | library/server.py:222-256 | A missing VM fails with "Cannot find VM to start"/"to stop". The rest is as for `PowerOn`. `changed` holds iff a mutation was issued. |
| Server.Active | library/server.py:222-238 | `active`: fails without a VM; no call when the VM is ACTIVE; otherwise one `start_server`, exiting with `changed` exactly when it is accepted. |
| Server.Stopped | library/server.py:240-256 | `stopped`: fails without a VM; no call when the VM is STOPPED; otherwise one `shutdown_server`, exiting with `changed` exactly when it is accepted. |
| Server.DiscoveryIgnoresWaits | library/server.py:58-87 | VM and IP discovery give the same result under any two oracles that differ only in how waits end. |
| Server.StepsIgnoreWaits | library/server.py:171-211 | The rename, network-port and IP-port steps are the same whatever the port waits return. |
| Server.ConnectIgnoresWaits | library/server.py:190-194 | The network port step does not depend on how its wait ends. |
| Server.AttachIgnoresWaits | library/server.py:207-211 | The IP port step does not depend on how its wait ends. |
| Server.PresentIgnoresWaits | library/server.py:141-146 | How the build and port waits end changes neither the calls, nor exit versus fail, nor `changed` of `present`. |
| Server.AbsentIgnoresWaits | library/server.py:155-159 | `absent` gives the same run whatever the delete wait does. |
| Server.TransitionIgnoresWaits | library/server.py:233-237 | How the start/stop wait ends changes neither the calls, nor exit versus fail, nor `changed`. |
| Keyring.NextFree | library/server.py:107-109 | The inner loop ends. It yields the first offset from its start whose name is not taken, and every offset it skipped is taken. |
| Keyring.Keys | library/server.py:99-100 | The keys are exactly the non-blank lines of the file. |
| Keyring.MatchingNames | library/server.py:101-102 | `key_names` holds exactly the names of existing keypairs whose content is one of the file's keys. |
| Keyring.UploadKeysToKeyring | library/server.py:89-118 | The nested loops compute exactly the reference definition: the same result and the same calls. An empty `keys_path` gives none with no call. |
| Keyring.OffsetsShape | library/server.py:105-109 | Each generated name is `KEY_PREFIX` followed by the offset used. Offsets are at least the start and strictly increase. |
| Keyring.UploadFromFresh | library/server.py:106-117 | From any loop state, generated names are not in the names taken before and are pairwise distinct. |
| Keyring.UploadFromKeys | library/server.py:106-117 | The loop uploads the keys in order, one `create_key` each, up to the first that fails. On success every key was uploaded and `key_names` ends with the generated names. |
| Keyring.UploadAvoids | library/server.py:105-117 | Generated names are not in the names the candidates are checked against, nor among the matching names, and are pairwise distinct. |
| Keyring.GeneratedNamesFresh | library/server.py:105-117 | Every uploaded name is `KEY_PREFIX` plus a positive integer. It is not a matching key's name, and uploaded names are pairwise distinct. |
| Keyring.OneUploadPerNewKey | library/server.py:103-117 | The uploaded contents follow the enumeration of `new_keys` and never repeat. On success they are exactly the file's keys that the keyring does not hold. |
| Keyring.ResultIsMatchingThenGenerated | library/server.py:101-118 | On success the result is the matching names followed by the generated names, and offsets strictly increase. |
| Keyring.UploadReusesUnrelatedName | library/server.py:105-112 | A keyring holding `key1` with other content and one new key: the upload uses the taken name `key1`. |
| Keyring.UploadKeysToKeyringFixed | library/server.py:105-112 | Checking candidates against every existing name: no existing keypair's name is ever uploaded. |
| Keyring.FixedUploadSkipsUnrelatedName | library/server.py:105-112 | On the same input the corrected loop picks `key2`. |
| PublicIp.Discover | library/public_ip.py:38-53 | With an id, only the id lookup: a 404 gives none and other errors fail. Else, with an address, the first IP in listing order with that address; the unguarded listing error escapes. Else none with no call. |
| PublicIp.Reserve | library/public_ip.py:55-63 | One `create_floatingip` for the requested address and project. It fails exactly when that errors, and otherwise returns the new IP. |
| PublicIp.NextAvailable | library/public_ip.py:65-74 | A listing error fails. When some IP is free, the result is the first free one in listing order with no mutation. Otherwise there is exactly one reservation. |
| PublicIp.Present | library/public_ip.py:99-108 | A discovered IP is returned unchanged with no further call. Otherwise, with an address, exactly that address is reserved in the project and `changed` is reported. Otherwise `next_available` runs, and the run reports the IP it picked or reserved, with `changed` even when a free IP is reused. |
| PublicIp.Release | library/public_ip.py:82-89 | A `delete_port` is issued only when the IP's `port_id` is truthy. Its error fails with "Failed to disconnect IP". |
| PublicIp.DisconnectAsWritten | library/public_ip.py:82-96 | After the IP is found: the port is deleted only when held, and `changed` is the `wait` flag, whether or not a port was deleted. With `wait`, the port wait follows the release. The IP is never released. |
| PublicIp.Absent | library/public_ip.py:77-97 | An undiscovered IP gives "No such IP", unchanged, with no mutation. Otherwise the port is deleted when held, and `changed` equals the `wait` flag. No call ever releases the IP itself. |
| PublicIp.Disconnect | library/public_ip.py:82-95 | The intended port release: `changed` holds exactly when a port was held and deleted. The port wait follows only such a deletion with `wait`. The IP is never released. |
| PublicIp.AbsentIntended | library/public_ip.py:77-97 | `absent` with the wait and the change inside the port branch. `changed` holds exactly when a mutating call was issued. |
| PublicIp.AbsentReportsWaitFlag | library/public_ip.py:84-96 | A held port deleted without `wait` reports no change. With `wait`, an IP no port holds reports a change. The intended version reports the opposite in both runs. |
| PublicIp.AbsentIntendedConverges | library/public_ip.py:77-97 | For any listing: after the intended `absent` found an IP and released its port, a second run against the listing with that port cleared finds the IP again and reports "IP not used", unchanged, with no mutation. |
| PublicIp.PresentConverges | library/public_ip.py:99-108 | Once the reserved address is listed, a second `present` for it finds it and reports no change with no mutation. |
| Keypairs.LookupName | library/keypair.py:31-38 | The name lookup: a non-404 error fails with "Error searching key". A 404 gives none, so discovery falls through. |
| Keypairs.ScanContent | library/keypair.py:39-46 | The content scan: a listing error fails. Otherwise the result is the first pair in listing order holding exactly the given key, or none exactly when no pair does. |
| Keypairs.Discover | library/keypair.py:30-47 | The name lookup comes first and decides when it finds a pair or fails. Otherwise the content scan runs. With neither a name nor a key, the result is none. A found pair is listed and matches the name or the key. |
| Keypairs.NewName | library/keypair.py:50-52 | The given name is used verbatim. Only without one is the name generated, starting with `ansible-autogen_`. |
| Keypairs.Create | library/keypair.py:49-58 | One `create_key` under that name. It fails exactly when that errors, and the new pair holds the given key. |
| Keypairs.Present | library/keypair.py:61-63 | A discovered pair is returned unchanged, whatever its name. Otherwise exactly one upload and `changed`. `changed` holds iff a mutation was issued. |
| Keypairs.Absent | library/keypair.py:65-74 | The discovered pair is deleted under its own stored name and `changed` is reported. Otherwise "No such keypair", unchanged, with no delete. |
| Keypairs.AbsentConverges | library/keypair.py:65-74 | When the deleted pair was the only one answering to the name or key, a second `absent` against the keyring without it reports "No such keypair", unchanged, with no mutation. |
| Keypairs.PresentIdempotent | library/keypair.py:30-63 | With a name or a key given, a second `present` after the first finds the pair by name or content and reports no change with no mutation. |
| Keypairs.IdentityByContent | library/keypair.py:39-63 | A key already held under another name, with nothing under the requested name, is returned unchanged with no upload. |
| Cyclades.DiscoverVm | library/cyclades.py:131-138 | The first VM in listing order with the name, or none exactly when there is none. A listing error fails. |
| Cyclades.DiscoverVmAgreesWithServer | library/cyclades.py:131-138 | Without an id, the draft's discovery equals the server module's. |
| Cyclades.StartVm | library/cyclades.py:114-129 | The run fails exactly when `start_server` errors. With `wait`, the unguarded wait's error escapes. Otherwise the run exits with `changed`, and reports "vm is now active!" exactly when the waited VM is ACTIVE. With `wait`, the wait follows the accepted start. |
| Cyclades.StopVm | library/cyclades.py:97-112 | The run fails exactly when `shutdown_server` errors. A wait that raises crashes the run. Otherwise it exits with `changed`, the given `vm_name` and `vm_id`, and reports "vm is now stopped!" exactly when the waited VM is STOPPED. The wait follows every accepted shutdown. |
| Cyclades.StartVmIntended | library/cyclades.py:114-129 | With the wait guarded, it never crashes. It exits exactly when the start is accepted, always with `changed`, and reports "vm is now active!" exactly when `wait` is set and the wait returns an ACTIVE VM. |
| Cyclades.StartVmIntendedAgrees | library/cyclades.py:114-129 | Without `wait`, or where the wait answers, the intended version and the draft coincide. |
| Cyclades.StartVmCrashesOnWaitError | library/cyclades.py:119-121 | A concrete run whose wait raises: the draft lets the error escape and the intended version exits with "vm is booting...". |
| Cyclades.StopVmCrashesOnWaitError | library/cyclades.py:102-106 | A concrete run whose wait raises: the draft crashes and the intended version exits with "vm is stopping...". |
| Cyclades.StopVmIntended | library/cyclades.py:97-112 | It never crashes. It exits exactly when the shutdown is accepted, always with `changed` and the given `vm_name` and `vm_id`. |
| Cyclades.StopVmIntendedAgrees | library/cyclades.py:97-112 | Where the wait answers, the intended version and the draft coincide. |
| Cyclades.DeleteVm | library/cyclades.py:174-185 | A delete error fails with "Error deleting VM". Otherwise it always exits with `changed`, and reports "now deleted" exactly when the wait answers. The wait follows every accepted delete. |
| Cyclades.DeleteVmAgreesWithServer | library/cyclades.py:174-185 | The draft's delete and the server module's issue the same single `delete_server`. Where the draft exits, the server module succeeds. They differ exactly on an error whose message holds "Server has been deleted", which only the server module tolerates. |

## Left out

- Reading the keys file (library/server.py:99-100): the file's stripped lines are an input.
- The iteration order of Python's `new_keys` set: it is an input `order`, required to list the set once. Every such order is covered.
- `KEY_PREFIX` is used by both `upload_keys_to_keyring` copies but defined by neither class. It is a parameter.
- Client construction and endpoint discovery are authentication and I/O plumbing over the kamaki SDK, whose code is not part of this project. This covers the `compute`, `network`, `astakos` and `cyclades` properties, SSL patching and the project check. module_utils/synnefo.py and library/synnefo.py are not part of this model for that reason.
- library/network.py is an unfinished stub and is not part of this model. So are `create_vm` of the cyclades draft and the two modules' `__main__` blocks.
- Wait and poll internals, and time-outs: each wait is one logged call whose outcome the oracle decides.
- The keypair autogen timestamp and uuid (library/keypair.py:51-52) are one opaque oracle string. A key the cloud generates when none is given is another.
- Exceptions other than kamaki's `ClientError` are not modelled. That includes a `KeyError` from an SDK record missing a field, and a wait that raises something else.
- Reads answer from one snapshot per run. A lookup that answers for an id or name the snapshot does not hold is treated as not found, which for keypairs means discovery goes on to the content scan.
- PublicIp.NextAvailable: the positional `fail_json('Error while looking for free ips')` is modelled as a failure with that message and empty details. Ansible releases whose `fail_json` takes keyword arguments only would raise `TypeError` there instead.
- The two modules disagree on the shape of a `list_keypairs` element. library/server.py:94-95 and library/cyclades.py:145-146 unwrap `x['keypair']` first, while library/keypair.py:42-45 reads `k['public_key']` on the element itself. The SDK that decides which shape is returned is not part of this project, so both readings are modelled as the same flat `Keypair`. Under the wrapped shape the keypair content scan would raise `KeyError`, and Keypairs.ScanContent, Keypairs.IdentityByContent and the content path of Keypairs.PresentIdempotent would not hold. Under the flat shape the same holds for the key upload of the two other modules.
- Keypairs.Create: `create_key` is assumed to store the pair exactly as requested, under the requested name and with the given key. The model does not read back what the SDK returns. Keypairs.PresentIdempotent relies on this, as PublicIp.PresentConverges relies on the new IP having the requested address.
- The code is read with Python 2 semantics, where `map` and `filter` return lists. Under Python 3 the `existing_keys` iterator (library/server.py:94-95, library/cyclades.py:145-146) would be used up by the `key_names` comprehension, so `new_keys` would be every key in the file, and Keyring.OneUploadPerNewKey would not hold. Also under Python 3, `ips[0]` on the filter object at library/public_ip.py:68-73 would raise `TypeError`, and `if ips:` would always be true.
- Server.Present: its own contract states that no exception escapes and that a failed discovery fails with no mutation. What it issues and reports after a discovery that answered is stated by `Server.PresentCreates` and `Server.PresentUpdates`.
- The convergence of server `present` over two runs is not stated. Whether a second run still attaches the network and IP depends on how the cloud lists them afterwards, which the modules do not control.

## Findings

| source | as written | input that shows it | evidently intended | confidence | as-written member | corrected member |
|---|---|---|---|---|---|---|
| library/server.py:105-112 | a candidate name is checked only against `key_names`, the names of keypairs whose content is in the file | a keyring holding `key1` with content `ssh-rsa AAAA` and a file with only `ssh-rsa BBBB`: `create_key('key1', 'ssh-rsa BBBB')` | candidate names avoid every existing keypair name | medium, not executed | Keyring.UploadReusesUnrelatedName | Keyring.UploadKeysToKeyringFixed |
| library/public_ip.py:90-96 | the `wait` block and its `changed=True` sit outside `if port_id:` | a held port with `wait` false gives `delete_port` and `changed=False`; a free IP with `wait` true gives `changed=True` with no mutation | `changed` is true exactly when a port was deleted | high, not executed | PublicIp.AbsentReportsWaitFlag | PublicIp.AbsentIntended |
| library/cyclades.py:102-106 | a failed wait sets `new_state = 'UNKNOWN'`, which is then indexed by `'status'` | `shutdown_server` accepted and `wait_server_until` raising: `TypeError` escapes | a failed wait reads as "vm is stopping..." | high, not executed | Cyclades.StopVmCrashesOnWaitError | Cyclades.StopVmIntended |
| library/cyclades.py:119-121 | the wait for `ACTIVE` is not inside a `try`, unlike the waits of `stop_vm` and `snf_delete_vm` | `start_server` accepted, `wait` true and `wait_server_until` raising: the `ClientError` escapes the module | a failed wait reads as "vm is booting..." | medium, not executed | Cyclades.StartVmCrashesOnWaitError | Cyclades.StartVmIntended |
| library/server.py:196-212 | attaching the floating IP creates a port but leaves `changed` as it was | an existing VM with nothing to rename, no private network, and an IP it does not hold: one `create_port`, `changed=False` | every issued mutating call counts as a change | medium, not executed | Server.PresentIpAttachIsNoChange | Server.PresentIntended |

=== FILE: base.dfy ===
/** Small generic helpers shared by every module: optional values, Python
    truthiness of optional strings, first-match search over a listing, and
    substring search. */
module Base {

  datatype Option<+T> = None | Some(value: T)

  /** Python truthiness of an optional string parameter: `None` and `''` are
      both false. */
  predicate Truthy(s: Option<string>) {
    s.Some? && s.value != ""
  }

  /** No element strictly before index `k` satisfies `p`. */
  ghost predicate NoneBefore<T>(xs: seq<T>, p: T -> bool, k: int)
    requires 0 <= k <= |xs|
  {
    forall j :: 0 <= j < k ==> !p(xs[j])
  }

  /** Index of the first element of `xs` that satisfies `p`, scanning in
      listing order. */
  function FirstIndex<T>(xs: seq<T>, p: T -> bool): (r: Option<nat>)
    ensures r.None? <==> forall i :: 0 <= i < |xs| ==> !p(xs[i])
    ensures r.Some? ==> r.value < |xs| && p(xs[r.value]) && NoneBefore(xs, p, r.value)
  {
    if |xs| == 0 then None
    else if p(xs[0]) then Some(0)
    else
      match FirstIndex(xs[1..], p)
      case None => None
      case Some(k) => Some(k + 1)
  }

  /** The first element of `xs` that satisfies `p`, or `None`. A loop that
      returns on its first hit. */
  function FirstMatch<T>(xs: seq<T>, p: T -> bool): (r: Option<T>)
    ensures r.None? <==> forall i :: 0 <= i < |xs| ==> !p(xs[i])
    ensures r.Some? ==> exists k :: 0 <= k < |xs| && xs[k] == r.value && p(xs[k]) && NoneBefore(xs, p, k)
  {
    match FirstIndex(xs, p)
    case None => None
    case Some(k) => Some(xs[k])
  }

  /** Python's `sub in s` on strings. */
  predicate Contains(s: string, sub: string) {
    sub <= s || (|s| > 0 && Contains(s[1..], sub))
  }

  /** `Contains` finds every occurrence, wherever it starts. */
  lemma {:induction false} ContainsAt(s: string, sub: string, i: nat)
    requires i + |sub| <= |s| && s[i..i + |sub|] == sub
    ensures Contains(s, sub)
  {
    if i == 0 {
      assert sub <= s;
    } else {
      assert s[1..][i - 1..i - 1 + |sub|] == sub;
      ContainsAt(s[1..], sub, i - 1);
    }
  }
}

=== FILE: cloud.dfy ===
/** The abstract cloud the modules talk to through the kamaki SDK: the
    records its listings return, the SDK calls a module can issue, the
    oracle that decides how those calls answer, and the shape of a module's
    result. */
module Cloud {
  import opened Base

  /** An SDK error (kamaki's `ClientError`): an HTTP status and a message. */
  datatype ApiError = ApiError(status: int, message: string)

  /** The one status every lookup treats as "no such resource". */
  const NotFound: int := 404

  /** One entry of a server's `attachments` list; only its `ipv4` is read. */
  datatype Attachment = Attachment(ipv4: Option<string>)

  /** A server as `get_server_details` / `list_servers(detail=True)` return it.
      `addresses` holds the keys of the server's address dictionary, which
      are network ids. */
  datatype Vm = Vm(id: string, name: string, status: string,
                   addresses: set<string>, attachments: seq<Attachment>)

  datatype FloatingIp = FloatingIp(id: string, address: string,
                                   portId: Option<string>, floatingNetworkId: string)

  datatype Keypair = Keypair(name: string, publicKey: string)

  /** One element of the `networks` argument of `create_server`. */
  datatype NetSpec = NetSpec(uuid: string, floatingIpAddress: Option<string>)

  /** Every SDK call a module issues, reads and waits included. */
  datatype Call =
    | GetServerDetails(serverId: string)
    | ListServers
    | CreateServer(name: Option<string>, imageId: Option<string>, flavorId: Option<string>,
                   projectId: Option<string>, sshKey: Option<string>, networks: seq<NetSpec>)
    | UpdateServerName(serverId: string, newName: string)
    | StartServer(serverId: string)
    | ShutdownServer(serverId: string)
    | DeleteServer(serverId: string)
    | WaitServerWhile(serverId: string, status: string)
    | WaitServerUntil(serverId: string, status: string)
    | ListKeypairs
    | GetKeypairDetails(keyName: string)
    | CreateKey(keyName: string, publicKey: Option<string>)
    | DeleteKeypair(keyName: string)
    | GetFloatingIpDetails(ipId: string)
    | ListFloatingIps
    | CreateFloatingIp(address: Option<string>, projectId: Option<string>)
    | DeleteFloatingIp(ipId: string)
    | CreatePort(networkId: string, deviceId: string, fixedIp: Option<string>)
    | DeletePort(portId: string)
    | WaitPortUntil(portId: string, status: string)
    | WaitPortWhile(port: Option<string>, status: string)

  /** Calls that change the cloud. */
  predicate IsMutating(c: Call) {
    || c.CreateServer? || c.UpdateServerName? || c.StartServer? || c.ShutdownServer?
    || c.DeleteServer? || c.CreateKey? || c.DeleteKeypair? || c.CreateFloatingIp?
    || c.DeleteFloatingIp? || c.CreatePort? || c.DeletePort?
  }

  /** Calls that block until a resource reaches or leaves a status. */
  predicate IsWait(c: Call) {
    c.WaitServerWhile? || c.WaitServerUntil? || c.WaitPortUntil? || c.WaitPortWhile?
  }

  /** The mutating calls of a call log, in order. */
  function Mutations(calls: seq<Call>): (m: seq<Call>)
    ensures forall c :: c in m <==> c in calls && IsMutating(c)
    ensures |m| <= |calls|
  {
    if calls == [] then []
    else if IsMutating(calls[0]) then [calls[0]] + Mutations(calls[1..])
    else Mutations(calls[1..])
  }

  lemma {:induction false} MutationsAppend(a: seq<Call>, b: seq<Call>)
    ensures Mutations(a + b) == Mutations(a) + Mutations(b)
  {
    if a == [] {
      assert a + b == b;
    } else {
      assert (a + b)[1..] == a[1..] + b;
      MutationsAppend(a[1..], b);
    }
  }

  /** What the cloud's listings and lookups return during one run. The
      modules read before they write, so one snapshot answers every read. */
  datatype Snapshot = Snapshot(vms: seq<Vm>, ips: seq<FloatingIp>, keypairs: seq<Keypair>)

  /** Everything about the cloud that the snapshot does not fix: which calls
      raise, what creating calls return, and what a completed server wait
      returns. A wait call raises exactly when `fault` gives it an error. */
  datatype Oracle = Oracle(
    fault: Call -> Option<ApiError>,
    newServer: Vm,
    waitedServer: Call -> Vm,
    newPortId: Call -> string,
    newIp: FloatingIp,
    autogenStamp: string,
    generatedKey: string)

  /** Two oracles that differ at most in how wait calls end. */
  ghost predicate SameButWaits(o1: Oracle, o2: Oracle) {
    && (forall c :: !IsWait(c) ==> o1.fault(c) == o2.fault(c))
    && o1.newServer == o2.newServer
    && (forall c :: o1.newPortId(c) == o2.newPortId(c))
    && o1.newIp == o2.newIp
    && o1.autogenStamp == o2.autogenStamp
    && o1.generatedKey == o2.generatedKey
  }

  /** The lookup by id that the SDK performs on the cloud's side: the
      resource, or a 404. */
  function VmWithId(vms: seq<Vm>, id: string): (r: Option<Vm>)
    ensures r.Some? ==> r.value in vms && r.value.id == id
    ensures r.None? ==> forall i :: 0 <= i < |vms| ==> vms[i].id != id
  {
    FirstMatch(vms, (vm: Vm) => vm.id == id)
  }

  function IpWithId(ips: seq<FloatingIp>, id: string): (r: Option<FloatingIp>)
    ensures r.Some? ==> r.value in ips && r.value.id == id
    ensures r.None? ==> forall i :: 0 <= i < |ips| ==> ips[i].id != id
    ensures r.Some? ==> exists k :: 0 <= k < |ips| && ips[k] == r.value && forall j :: 0 <= j < k ==> ips[j].id != id
  {
    FirstMatch(ips, (ip: FloatingIp) => ip.id == id)
  }

  function KeypairNamed(pairs: seq<Keypair>, name: string): (r: Option<Keypair>)
    ensures r.Some? ==> r.value in pairs && r.value.name == name
    ensures r.None? ==> forall i :: 0 <= i < |pairs| ==> pairs[i].name != name
  {
    FirstMatch(pairs, (k: Keypair) => k.name == name)
  }

  /** An intermediate step: its value or the failure that ends the run,
      together with the calls it issued. `Err` is a `fail_json`; `Abort` is
      an exception the module does not catch. */
  datatype Result<+T> = Ok(value: T) | Err(msg: string, details: string) | Abort(reason: string)

  datatype Step<+T> = Step(res: Result<T>, calls: seq<Call>)

  /** A module's final word: `exit_json`, `fail_json`, or an uncaught
      exception. */
  datatype Outcome<+T> =
    | Exit(changed: bool, payload: T)
    | Fail(msg: string, details: string)
    | Crash(reason: string)

  datatype Run<+T> = Run(out: Outcome<T>, calls: seq<Call>)

  /** Ends a run with the failure of an intermediate step. */
  function Halt<T, U>(s: Step<T>): (r: Run<U>)
    requires !s.res.Ok?
    ensures !r.out.Exit? && r.calls == s.calls
    ensures r.out.Fail? <==> s.res.Err?
  {
    match s.res
    case Err(m, d) => Run(Fail(m, d), s.calls)
    case Abort(x) => Run(Crash(x), s.calls)
  }

  /** Runs `r` after the calls `before`. */
  function After<T>(before: seq<Call>, r: Run<T>): Run<T> {
    Run(r.out, before + r.calls)
  }

  /** An SDK call whose only possible effect on the run is to fail it. */
  function Attempt(c: Call, o: Oracle, msg: string): (s: Step<()>)
    ensures s.calls == [c] && !s.res.Abort?
    ensures s.res.Ok? <==> o.fault(c).None?
  {
    match o.fault(c)
    case Some(e) => Step(Err(msg, e.message), [c])
    case None => Step(Ok(()), [c])
  }

  /** A wait whose failure is swallowed: the call is issued and nothing else
      depends on how it ends. */
  function WaitIf(wait: bool, c: Call): (calls: seq<Call>)
    requires IsWait(c)
    ensures Mutations(calls) == []
  {
    if wait then [c] else []
  }

  /** An oracle under which every call answers. */
  function QuietOracle(): (o: Oracle)
    ensures forall c :: o.fault(c).None?
  {
    var vm := Vm("", "", "", {}, []);
    Oracle((c: Call) => None, vm, (c: Call) => vm, (c: Call) => "",
           FloatingIp("", "", None, ""), "", "")
  }
}

=== FILE: cyclades.dfy ===
/** The older cyclades draft of the server logic: name discovery and the
    start, stop and delete helpers, each of which ends the run itself. Its
    key upload is the one modelled in `Keyring`. */
module Cyclades {
  import opened Base
  import opened Cloud
  import Server

  /** What the helpers report besides `changed`: `vm_name`, `vm_id` and the
      message. */
  datatype VmReport = VmReport(vmName: Option<string>, vmId: string, msg: string)

  /** `discover_vm`: the first VM in listing order with the given name. */
  function DiscoverVm(vmName: Option<string>, snap: Snapshot, o: Oracle): (r: Step<Option<Vm>>)
    ensures r.calls == [ListServers] && !r.res.Abort?
    ensures r.res.Err? <==> o.fault(ListServers).Some?
    ensures r.res == Ok(None) <==>
      o.fault(ListServers).None? && forall i :: 0 <= i < |snap.vms| ==> !Server.NameIs(vmName, snap.vms[i])
    ensures r.res.Ok? && r.res.value.Some? ==>
      exists k :: 0 <= k < |snap.vms| && snap.vms[k] == r.res.value.value && Server.NameIs(vmName, snap.vms[k])
        && forall j :: 0 <= j < k ==> !Server.NameIs(vmName, snap.vms[j])
  {
    match o.fault(ListServers)
    case Some(e) => Step(Err("Could not list VMs", e.message), [ListServers])
    case None => Step(Ok(FirstMatch(snap.vms, (vm: Vm) => Server.NameIs(vmName, vm))), [ListServers])
  }

  /** The draft and the server module agree on discovery by name. */
  lemma DiscoverVmAgreesWithServer(p: Server.Params, snap: Snapshot, o: Oracle)
    requires !Truthy(p.id)
    ensures DiscoverVm(p.name, snap, o) == Server.Discover(p, snap, o)
  {
  }

  /** `start_vm`: one `start_server`, then with `wait` an unguarded wait for
      `ACTIVE`, whose error escapes the module. */
  function StartVm(vmName: Option<string>, wait: bool, vmId: string, o: Oracle): (r: Run<VmReport>)
    ensures Mutations(r.calls) == [StartServer(vmId)]
    ensures r.out.Fail? <==> o.fault(StartServer(vmId)).Some?
    ensures r.out.Fail? ==> r.out.msg == "Failed to start VM"
    ensures r.out.Crash? <==>
      o.fault(StartServer(vmId)).None? && wait && o.fault(WaitServerUntil(vmId, "ACTIVE")).Some?
    ensures r.out.Exit? ==> r.out.changed && r.out.payload.vmId == vmId && r.out.payload.vmName == vmName
    ensures r.out.Exit? ==>
      (r.out.payload.msg == "vm is now active!" <==>
         wait && o.waitedServer(WaitServerUntil(vmId, "ACTIVE")).status == "ACTIVE")
    ensures !r.out.Fail? && wait ==> r.calls == [StartServer(vmId), WaitServerUntil(vmId, "ACTIVE")]
  {
    var call := StartServer(vmId);
    match o.fault(call)
    case Some(e) => Run(Fail("Failed to start VM", e.message), [call])
    case None =>
      if wait then
        var w := WaitServerUntil(vmId, "ACTIVE");
        MutationsAppend([call], [w]);
        match o.fault(w)
        case Some(e) => Run(Crash("ClientError from wait_server_until: " + e.message), [call, w])
        case None =>
          if o.waitedServer(w).status == "ACTIVE" then
            Run(Exit(true, VmReport(vmName, vmId, "vm is now active!")), [call, w])
          else Run(Exit(true, VmReport(vmName, vmId, "vm is booting...")), [call, w])
      else Run(Exit(true, VmReport(vmName, vmId, "vm is booting...")), [call])
  }

  /** `start_vm` as evidently intended: the wait for `ACTIVE` is guarded
      like those of `stop_vm` and `snf_delete_vm`, and an error from it leaves the
      VM reported as still booting. */
  function StartVmIntended(vmName: Option<string>, wait: bool, vmId: string, o: Oracle): (r: Run<VmReport>)
    ensures !r.out.Crash?
    ensures Mutations(r.calls) == [StartServer(vmId)]
    ensures r.out.Exit? <==> o.fault(StartServer(vmId)).None?
    ensures r.out.Fail? ==> r.out.msg == "Failed to start VM"
    ensures r.out.Exit? ==> r.out.changed && r.out.payload.vmId == vmId && r.out.payload.vmName == vmName
    ensures r.out.Exit? ==>
      (r.out.payload.msg == "vm is now active!" <==>
         var w := WaitServerUntil(vmId, "ACTIVE");
         wait && o.fault(w).None? && o.waitedServer(w).status == "ACTIVE")
  {
    var call := StartServer(vmId);
    match o.fault(call)
    case Some(e) => Run(Fail("Failed to start VM", e.message), [call])
    case None =>
      if wait then
        var w := WaitServerUntil(vmId, "ACTIVE");
        MutationsAppend([call], [w]);
        if o.fault(w).None? && o.waitedServer(w).status == "ACTIVE" then
          Run(Exit(true, VmReport(vmName, vmId, "vm is now active!")), [call, w])
        else Run(Exit(true, VmReport(vmName, vmId, "vm is booting...")), [call, w])
      else Run(Exit(true, VmReport(vmName, vmId, "vm is booting...")), [call])
  }

  /** The draft and the intended start agree unless the wait raises. */
  lemma StartVmIntendedAgrees(vmName: Option<string>, wait: bool, vmId: string, o: Oracle)
    requires !wait || o.fault(WaitServerUntil(vmId, "ACTIVE")).None?
    ensures StartVmIntended(vmName, wait, vmId, o) == StartVm(vmName, wait, vmId, o)
  {
  }

  /** A start that succeeds followed by a wait that raises: the draft lets
      the error escape where the intended version reports "vm is
      booting...". */
  lemma StartVmCrashesOnWaitError()
    ensures var vm := Vm("", "", "", {}, []);
      var o := Oracle((c: Call) => if c.WaitServerUntil? then Some(ApiError(500, "timeout")) else None,
                      vm, (c: Call) => vm, (c: Call) => "", FloatingIp("", "", None, ""), "", "");
      && StartVm(Some("web"), true, "vm-1", o).out.Crash?
      && StartVmIntended(Some("web"), true, "vm-1", o).out == Exit(true, VmReport(Some("web"), "vm-1", "vm is booting..."))
  {
  }

  /** The report after the stop wait returned a VM. */
  function StoppedReport(vmName: Option<string>, vmId: string, vm: Vm): VmReport {
    VmReport(vmName, vmId, if vm.status == "STOPPED" then "vm is now stopped!" else "vm is stopping...")
  }

  /** `stop_vm` as written: one `shutdown_server` and a wait for `STOPPED`.
      Any error from the wait leaves the string `'UNKNOWN'` where a VM is
      expected, and indexing it by `'status'` raises `TypeError`. */
  function StopVm(vmName: Option<string>, vmId: string, o: Oracle): (r: Run<VmReport>)
    ensures Mutations(r.calls) == [ShutdownServer(vmId)]
    ensures r.out.Fail? <==> o.fault(ShutdownServer(vmId)).Some?
    ensures r.out.Fail? ==> r.out.msg == "Failed to stop VM"
    ensures r.out.Crash? <==>
      o.fault(ShutdownServer(vmId)).None? && o.fault(WaitServerUntil(vmId, "STOPPED")).Some?
    ensures r.out.Exit? ==> r.out.changed && r.out.payload.vmId == vmId && r.out.payload.vmName == vmName
    ensures r.out.Exit? ==>
      (r.out.payload.msg == "vm is now stopped!" <==>
         o.waitedServer(WaitServerUntil(vmId, "STOPPED")).status == "STOPPED")
    ensures !r.out.Fail? ==> r.calls == [ShutdownServer(vmId), WaitServerUntil(vmId, "STOPPED")]
  {
    var call := ShutdownServer(vmId);
    match o.fault(call)
    case Some(e) => Run(Fail("Failed to stop VM", e.message), [call])
    case None =>
      var w := WaitServerUntil(vmId, "STOPPED");
      MutationsAppend([call], [w]);
      match o.fault(w)
      case Some(_) => Run(Crash("TypeError: string indices must be integers"), [call, w])
      case None => Run(Exit(true, StoppedReport(vmName, vmId, o.waitedServer(w))), [call, w])
  }

  /** `stop_vm` as evidently intended: a failed wait leaves the status
      unknown, which reads as "still stopping". */
  function StopVmIntended(vmName: Option<string>, vmId: string, o: Oracle): (r: Run<VmReport>)
    ensures !r.out.Crash?
    ensures Mutations(r.calls) == [ShutdownServer(vmId)]
    ensures r.out.Exit? <==> o.fault(ShutdownServer(vmId)).None?
    ensures r.out.Exit? ==> r.out.changed && r.out.payload.vmId == vmId && r.out.payload.vmName == vmName
    ensures r.out.Exit? ==>
      (r.out.payload.msg == "vm is now stopped!" <==>
         var w := WaitServerUntil(vmId, "STOPPED");
         o.fault(w).None? && o.waitedServer(w).status == "STOPPED")
  {
    var call := ShutdownServer(vmId);
    match o.fault(call)
    case Some(e) => Run(Fail("Failed to stop VM", e.message), [call])
    case None =>
      var w := WaitServerUntil(vmId, "STOPPED");
      MutationsAppend([call], [w]);
      match o.fault(w)
      case Some(_) => Run(Exit(true, VmReport(vmName, vmId, "vm is stopping...")), [call, w])
      case None => Run(Exit(true, StoppedReport(vmName, vmId, o.waitedServer(w))), [call, w])
  }

  /** The two agree wherever the wait answers. */
  lemma StopVmIntendedAgrees(vmName: Option<string>, vmId: string, o: Oracle)
    requires o.fault(WaitServerUntil(vmId, "STOPPED")).None?
    ensures StopVmIntended(vmName, vmId, o) == StopVm(vmName, vmId, o)
  {
  }

  /** A shutdown that succeeds followed by a wait that raises: the draft
      crashes where the intended version reports "vm is stopping...". */
  lemma StopVmCrashesOnWaitError()
    ensures var vm := Vm("", "", "", {}, []);
      var o := Oracle((c: Call) => if c.WaitServerUntil? then Some(ApiError(500, "timeout")) else None,
                      vm, (c: Call) => vm, (c: Call) => "", FloatingIp("", "", None, ""), "", "");
      && StopVm(Some("web"), "vm-1", o).out.Crash?
      && StopVmIntended(Some("web"), "vm-1", o).out == Exit(true, VmReport(Some("web"), "vm-1", "vm is stopping..."))
  {
  }

  /** The draft's delete and the server module's issue the same one
      `delete_server`; they part only on an error saying the server is
      already gone, which the server module tolerates and the draft does
      not. */
  lemma DeleteVmAgreesWithServer(p: Server.Params, vmId: string, o: Oracle)
    ensures Mutations(DeleteVm(vmId, o).calls) == Mutations(Server.Delete(p, vmId, o).calls)
    ensures DeleteVm(vmId, o).out.Exit? ==> Server.Delete(p, vmId, o).res.Ok?
    ensures Server.Delete(p, vmId, o).res.Ok? && !DeleteVm(vmId, o).out.Exit? <==>
      o.fault(DeleteServer(vmId)).Some? && Contains(o.fault(DeleteServer(vmId)).value.message, Server.AlreadyDeleted)
  {
  }

  /** `snf_delete_vm`: one `delete_server`; afterwards a change whether the
      wait for the VM to leave `ACTIVE` answers or raises, only the message
      differing. */
  function DeleteVm(vmId: string, o: Oracle): (r: Run<string>)
    ensures !r.out.Crash?
    ensures Mutations(r.calls) == [DeleteServer(vmId)]
    ensures r.out.Exit? <==> o.fault(DeleteServer(vmId)).None?
    ensures r.out.Fail? ==> r.out.msg == "Error deleting VM"
    ensures r.out.Exit? ==> r.out.changed
    ensures r.out.Exit? ==>
      (r.out.payload == "VM " + vmId + " is now deleted!" <==> o.fault(WaitServerWhile(vmId, "ACTIVE")).None?)
    ensures r.out.Exit? ==> r.calls == [DeleteServer(vmId), WaitServerWhile(vmId, "ACTIVE")]
  {
    var call := DeleteServer(vmId);
    match o.fault(call)
    case Some(e) => Run(Fail("Error deleting VM", e.message), [call])
    case None =>
      var w := WaitServerWhile(vmId, "ACTIVE");
      MutationsAppend([call], [w]);
      match o.fault(w)
      case Some(_) => Run(Exit(true, "deleting vm with id " + vmId + " ..."), [call, w])
      case None => Run(Exit(true, "VM " + vmId + " is now deleted!"), [call, w])
  }
}

=== FILE: keypair.dfy ===
/** The keypair module: discovery of one keypair by name or by public-key
    content, upload of a new pair, and the `present` / `absent` state
    functions. A pair's identity is its content as much as its name. */
module Keypairs {
  import opened Base
  import opened Cloud

  datatype Params = Params(name: Option<string>, publicKey: Option<string>)

  /** The content scan: `k['public_key'] == public_key`. */
  predicate HoldsKey(key: string, k: Keypair) {
    k.publicKey == key
  }

  /** The name lookup, when a name is given. A 404, or a name the cloud does
      not hold, gives `Ok(None)` so that discovery goes on to the content
      scan. */
  function LookupName(p: Params, snap: Snapshot, o: Oracle): (r: Step<Option<Keypair>>)
    requires Truthy(p.name)
    ensures r.calls == [GetKeypairDetails(p.name.value)] && !r.res.Abort?
    ensures var f := o.fault(GetKeypairDetails(p.name.value));
      && (r.res.Err? <==> f.Some? && f.value.status != NotFound)
      && (r.res.Err? ==> r.res.msg == "Error searching key")
      && (f.None? ==> r.res == Ok(KeypairNamed(snap.keypairs, p.name.value)))
      && (f.Some? && f.value.status == NotFound ==> r.res == Ok(None))
  {
    var call := GetKeypairDetails(p.name.value);
    match o.fault(call)
    case Some(e) =>
      if e.status == NotFound then Step(Ok(None), [call])
      else Step(Err("Error searching key", e.message), [call])
    case None => Step(Ok(KeypairNamed(snap.keypairs, p.name.value)), [call])
  }

  /** The content scan, when a public key is given: the first pair in
      listing order holding exactly that key. */
  function ScanContent(p: Params, snap: Snapshot, o: Oracle): (r: Step<Option<Keypair>>)
    requires Truthy(p.publicKey)
    ensures r.calls == [ListKeypairs] && !r.res.Abort?
    ensures r.res.Err? <==> o.fault(ListKeypairs).Some?
    ensures r.res == Ok(None) <==>
      o.fault(ListKeypairs).None? &&
      forall i :: 0 <= i < |snap.keypairs| ==> !HoldsKey(p.publicKey.value, snap.keypairs[i])
    ensures r.res.Ok? && r.res.value.Some? ==>
      exists k :: 0 <= k < |snap.keypairs| && snap.keypairs[k] == r.res.value.value
        && HoldsKey(p.publicKey.value, snap.keypairs[k])
        && forall j :: 0 <= j < k ==> !HoldsKey(p.publicKey.value, snap.keypairs[j])
  {
    match o.fault(ListKeypairs)
    case Some(e) => Step(Err("Error listing keys", e.message), [ListKeypairs])
    case None =>
      var key := p.publicKey.value;
      Step(Ok(FirstMatch(snap.keypairs, (k: Keypair) => HoldsKey(key, k))), [ListKeypairs])
  }

  /** `discover`: the name lookup first; when it finds nothing, the content
      scan; with neither a name nor a key, nothing. */
  function Discover(p: Params, snap: Snapshot, o: Oracle): (r: Step<Option<Keypair>>)
    ensures !r.res.Abort? && Mutations(r.calls) == []
    ensures r.res.Ok? && r.res.value.Some? ==>
      var k := r.res.value.value;
      k in snap.keypairs &&
      ((Truthy(p.name) && k.name == p.name.value) || (Truthy(p.publicKey) && HoldsKey(p.publicKey.value, k)))
    ensures Truthy(p.name) && LookupName(p, snap, o).res.Ok? && LookupName(p, snap, o).res.value.Some? ==>
      r == LookupName(p, snap, o)
    ensures Truthy(p.name) && LookupName(p, snap, o).res.Err? ==> r == LookupName(p, snap, o)
    ensures Truthy(p.name) && LookupName(p, snap, o).res == Ok(None) && Truthy(p.publicKey) ==>
      r == Step(ScanContent(p, snap, o).res, LookupName(p, snap, o).calls + [ListKeypairs])
    ensures !Truthy(p.name) && Truthy(p.publicKey) ==> r == ScanContent(p, snap, o)
    ensures !Truthy(p.publicKey) && (!Truthy(p.name) || LookupName(p, snap, o).res == Ok(None)) ==>
      r.res == Ok(None)
  {
    var byName := if Truthy(p.name) then LookupName(p, snap, o) else Step(Ok(None), []);
    if !byName.res.Ok? || byName.res.value.Some? then byName
    else if Truthy(p.publicKey) then
      var s := ScanContent(p, snap, o);
      Step(s.res, byName.calls + s.calls)
    else byName
  }

  /** The name `create` uploads under: the given one verbatim, else a fresh
      `ansible-autogen_` name. */
  function NewName(p: Params, o: Oracle): (name: string)
    ensures Truthy(p.name) ==> name == p.name.value
    ensures !Truthy(p.name) ==> AutogenPrefix <= name
  {
    if Truthy(p.name) then p.name.value else AutogenPrefix + o.autogenStamp
  }

  const AutogenPrefix := "ansible-autogen_"

  /** `create`: one `create_key`; the pair holds the given key, or the one
      the cloud generated when none was given. */
  function Create(p: Params, o: Oracle): (r: Step<Keypair>)
    ensures !r.res.Abort?
    ensures r.calls == [CreateKey(NewName(p, o), p.publicKey)]
    ensures r.res.Ok? <==> o.fault(CreateKey(NewName(p, o), p.publicKey)).None?
    ensures r.res.Ok? ==> r.res.value.name == NewName(p, o)
    ensures r.res.Ok? && Truthy(p.publicKey) ==> r.res.value.publicKey == p.publicKey.value
  {
    var call := CreateKey(NewName(p, o), p.publicKey);
    match o.fault(call)
    case Some(e) => Step(Err("Failed to upload public key", e.message), [call])
    case None =>
      Step(Ok(Keypair(NewName(p, o), if Truthy(p.publicKey) then p.publicKey.value else o.generatedKey)),
           [call])
  }

  /** `present`: a discovered pair is reported as is, whatever name it is
      stored under; otherwise one upload and a change. */
  function Present(p: Params, snap: Snapshot, o: Oracle): (r: Run<Keypair>)
    ensures !r.out.Crash?
    ensures var d := Discover(p, snap, o);
      && (d.res.Ok? && d.res.value.Some? ==> r == Run(Exit(false, d.res.value.value), d.calls))
      && (d.res == Ok(None) ==>
            && Mutations(r.calls) == [CreateKey(NewName(p, o), p.publicKey)]
            && (r.out.Exit? <==> Create(p, o).res.Ok?)
            && (r.out.Exit? ==> r.out.changed && r.out.payload == Create(p, o).res.value))
      && (d.res.Err? ==> r.out.Fail? && Mutations(r.calls) == [])
    ensures r.out.Exit? ==> (r.out.changed <==> Mutations(r.calls) != [])
  {
    var d := Discover(p, snap, o);
    if !d.res.Ok? then Halt(d)
    else match d.res.value
      case Some(k) => Run(Exit(false, k), d.calls)
      case None =>
        var c := Create(p, o);
        MutationsAppend(d.calls, c.calls);
        if !c.res.Ok? then After(d.calls, Halt(c))
        else Run(Exit(true, c.res.value), d.calls + c.calls)
  }

  /** `absent`: the discovered pair is deleted under its own stored name,
      which may differ from the requested one. */
  function Absent(p: Params, snap: Snapshot, o: Oracle): (r: Run<string>)
    ensures !r.out.Crash?
    ensures var d := Discover(p, snap, o);
      && (d.res == Ok(None) ==> r == Run(Exit(false, "No such keypair"), d.calls))
      && (d.res.Ok? && d.res.value.Some? ==>
            var k := d.res.value.value;
            && Mutations(r.calls) == [DeleteKeypair(k.name)]
            && (r.out.Exit? <==> o.fault(DeleteKeypair(k.name)).None?)
            && (r.out.Exit? ==> r.out == Exit(true, "Keypair deleted")))
      && (d.res.Err? ==> r.out.Fail? && Mutations(r.calls) == [])
    ensures r.out.Exit? ==> (r.out.changed <==> Mutations(r.calls) != [])
  {
    var d := Discover(p, snap, o);
    if !d.res.Ok? then Halt(d)
    else match d.res.value
      case None => Run(Exit(false, "No such keypair"), d.calls)
      case Some(k) =>
        var s := Attempt(DeleteKeypair(k.name), o, "Failed to delete keypair");
        MutationsAppend(d.calls, s.calls);
        if !s.res.Ok? then After(d.calls, Halt(s))
        else Run(Exit(true, "Keypair deleted"), d.calls + s.calls)
  }

  // ---------------------------------------------------------------------
  // Properties

  /** The reads of discovery all answer. */
  predicate ReadsAnswer(p: Params, o: Oracle) {
    && o.fault(ListKeypairs).None?
    && (Truthy(p.name) ==> o.fault(GetKeypairDetails(p.name.value)).None?)
  }

  /** The keypairs after a `present` run: the uploaded pair, if any, joins
      the listing. */
  function AfterPresent(snap: Snapshot, r: Run<Keypair>): Snapshot
    requires r.out.Exit?
  {
    if r.out.changed then Snapshot(snap.vms, snap.ips, snap.keypairs + [r.out.payload])
    else snap
  }

  /** A repeated `present` with the same name or key, and nothing else
      changing the keyring in between, finds the pair and reports no
      change. */
  lemma {:induction false} PresentIdempotent(p: Params, snap: Snapshot, o: Oracle, o2: Oracle)
    requires Truthy(p.name) || Truthy(p.publicKey)
    requires ReadsAnswer(p, o2)
    ensures var r := Present(p, snap, o);
      r.out.Exit? ==>
        var r2 := Present(p, AfterPresent(snap, r), o2);
        r2.out.Exit? && !r2.out.changed && Mutations(r2.calls) == []
  {
    var r := Present(p, snap, o);
    if r.out.Exit? {
      var snap2 := AfterPresent(snap, r);
      var k := r.out.payload;
      assert k in snap2.keypairs;
      assert Truthy(p.name) ==> k.name == p.name.value || !r.out.changed;
      if Truthy(p.name) && k.name == p.name.value {
        assert KeypairNamed(snap2.keypairs, p.name.value).Some?;
      } else {
        assert Truthy(p.publicKey) && HoldsKey(p.publicKey.value, k);
        assert exists i :: 0 <= i < |snap2.keypairs| && HoldsKey(p.publicKey.value, snap2.keypairs[i]);
      }
    }
  }

  /** Identity is content: with a key that some pair already holds, and no
      pair under the requested name, `present` returns that pair unchanged
      whatever it is named. */
  lemma IdentityByContent(p: Params, snap: Snapshot, o: Oracle, i: nat)
    requires Truthy(p.publicKey) && ReadsAnswer(p, o)
    requires i < |snap.keypairs| && HoldsKey(p.publicKey.value, snap.keypairs[i])
    requires Truthy(p.name) ==> KeypairNamed(snap.keypairs, p.name.value).None?
    ensures var r := Present(p, snap, o);
      && r.out.Exit? && !r.out.changed
      && r.out.payload in snap.keypairs && HoldsKey(p.publicKey.value, r.out.payload)
      && Mutations(r.calls) == []
  {
  }

  /** The request names or holds this pair. */
  predicate Answers(p: Params, k: Keypair) {
    (Truthy(p.name) && k.name == p.name.value) || (Truthy(p.publicKey) && HoldsKey(p.publicKey.value, k))
  }

  /** The keypairs once a delete took effect: the deleted pair is gone and
      every other pair stays. */
  function Without(pairs: seq<Keypair>, k: Keypair): (r: seq<Keypair>)
    ensures forall x :: x in r <==> x in pairs && x != k
  {
    if pairs == [] then []
    else (if pairs[0] == k then [] else [pairs[0]]) + Without(pairs[1..], k)
  }

  /** `absent` converges: when the deleted pair was the only one answering
      to the request, a second run against the keyring without it finds
      nothing and changes nothing. */
  lemma {:induction false} AbsentConverges(p: Params, snap: Snapshot, o: Oracle, o2: Oracle)
    requires ReadsAnswer(p, o2)
    ensures var d := Discover(p, snap, o);
      && Absent(p, snap, o).out.Exit? && d.res.Ok? && d.res.value.Some?
      && (forall i :: 0 <= i < |snap.keypairs| && Answers(p, snap.keypairs[i]) ==> snap.keypairs[i] == d.res.value.value)
      ==>
        var r2 := Absent(p, Snapshot(snap.vms, snap.ips, Without(snap.keypairs, d.res.value.value)), o2);
        r2.out == Exit(false, "No such keypair") && Mutations(r2.calls) == []
  {
    var d := Discover(p, snap, o);
    if d.res.Ok? && d.res.value.Some?
       && forall i :: 0 <= i < |snap.keypairs| && Answers(p, snap.keypairs[i]) ==> snap.keypairs[i] == d.res.value.value
    {
      var k := d.res.value.value;
      var pairs := Without(snap.keypairs, k);
      var snap2 := Snapshot(snap.vms, snap.ips, pairs);
      assert forall i :: 0 <= i < |pairs| ==> !Answers(p, pairs[i]) by {
        forall i | 0 <= i < |pairs|
          ensures !Answers(p, pairs[i])
        {
          assert pairs[i] in snap.keypairs && pairs[i] != k;
        }
      }
      assert Discover(p, snap2, o2).res == Ok(None);
    }
  }
}

=== FILE: keyring.dfy ===
/** `upload_keys_to_keyring` of the server module (and, verbatim, of the
    older cyclades module): upload every public key of a keys file that the
    keyring does not hold yet, under fresh names `PREFIX1`, `PREFIX2`, ...

    The file is read by the caller; here it arrives as its lines. The
    iteration order of Python's `new_keys` set is not fixed, so it arrives as
    `order`, any sequence that lists that set once. */
module Keyring {
  import opened Base
  import opened Cloud

  // ---------------------------------------------------------------------
  // Decimal names

  function Pow10(k: nat): (r: nat)
    ensures r >= 1
  {
    if k == 0 then 1 else 10 * Pow10(k - 1)
  }

  function DigitChar(d: nat): char
    requires d < 10
  {
    "0123456789"[d]
  }

  /** Python's `'{}'.format(n)` for a non-negative integer. */
  function NatToString(n: nat): (s: string)
    ensures |s| >= 1
  {
    if n < 10 then [DigitChar(n)] else NatToString(n / 10) + [DigitChar(n % 10)]
  }

  /** A number with at least `k + 1` digits prints with more than `k`
      characters; this is what makes the search for a free name end. */
  lemma {:induction false} NatToStringGrows(n: nat, k: nat)
    requires n >= Pow10(k)
    ensures |NatToString(n)| > k
  {
    if k > 0 {
      assert n >= 10;
      assert n / 10 >= Pow10(k - 1);
      NatToStringGrows(n / 10, k - 1);
    }
  }

  /** The name `'{}{}'.format(KEY_PREFIX, n)`. */
  function KeyName(prefix: string, n: nat): string {
    prefix + NatToString(n)
  }

  function MaxLen(names: seq<string>): (m: nat)
    ensures forall i :: 0 <= i < |names| ==> |names[i]| <= m
  {
    if names == [] then 0
    else var rest := MaxLen(names[1..]);
    if |names[0]| > rest then |names[0]| else rest
  }

  /** A name in `taken` has a suffix below `Pow10(MaxLen(taken))`. */
  lemma TakenNameBound(prefix: string, taken: seq<string>, n: nat)
    requires KeyName(prefix, n) in taken
    ensures n < Pow10(MaxLen(taken))
  {
    if n >= Pow10(MaxLen(taken)) {
      NatToStringGrows(n, MaxLen(taken));
      assert false;
    }
  }

  /** The inner `while new_key_name in key_names` loop: the first offset
      from `n` on whose name is not taken. */
  function NextFree(prefix: string, taken: seq<string>, n: nat): (m: nat)
    ensures n <= m && KeyName(prefix, m) !in taken
    ensures forall j :: n <= j < m ==> KeyName(prefix, j) in taken
    decreases Pow10(MaxLen(taken)) - n
  {
    if KeyName(prefix, n) in taken then
      TakenNameBound(prefix, taken, n);
      NextFree(prefix, taken, n + 1)
    else n
  }

  // ---------------------------------------------------------------------
  // The keys file and the keyring

  /** The keys of the file: its non-blank lines (stripping is left to the
      reader of the file). */
  function Keys(lines: seq<string>): (keys: seq<string>)
    ensures forall k :: k in keys <==> k in lines && k != ""
  {
    if lines == [] then []
    else if lines[0] != "" then [lines[0]] + Keys(lines[1..])
    else Keys(lines[1..])
  }

  /** `key_names` before the loop: names of existing keypairs whose content
      is one of the file's keys, in listing order. */
  function MatchingNames(pairs: seq<Keypair>, keys: seq<string>): (names: seq<string>)
    ensures forall n :: n in names <==> exists i :: 0 <= i < |pairs| && pairs[i].name == n && pairs[i].publicKey in keys
  {
    if pairs == [] then []
    else
      var rest := MatchingNames(pairs[1..], keys);
      assert forall i :: 1 <= i < |pairs| ==> pairs[i] == pairs[1..][i - 1];
      if pairs[0].publicKey in keys then [pairs[0].name] + rest else rest
  }

  function AllNames(pairs: seq<Keypair>): (names: seq<string>)
    ensures |names| == |pairs|
    ensures forall i :: 0 <= i < |pairs| ==> names[i] == pairs[i].name
  {
    if pairs == [] then [] else [pairs[0].name] + AllNames(pairs[1..])
  }

  /** `new_keys`: the file's keys whose content the keyring does not hold. */
  function NewKeys(pairs: seq<Keypair>, keys: seq<string>): set<string> {
    (set k | k in keys) - (set p | p in pairs :: p.publicKey)
  }

  /** `order` lists the set `s`, each element once. */
  predicate Enumerates(order: seq<string>, s: set<string>) {
    && (forall i, j :: 0 <= i < j < |order| ==> order[i] != order[j])
    && (forall i :: 0 <= i < |order| ==> order[i] in s)
    && (forall k :: k in s ==> k in order)
  }

  // ---------------------------------------------------------------------
  // The upload loop, as a reference definition

  /** What the loop produces: the result, the calls, and the offset used by
      each `create_key`, in order. */
  datatype Uploaded = Uploaded(res: Result<Option<seq<string>>>, calls: seq<Call>, offsets: seq<nat>)

  /** The names of the `create_key` calls of a call log, in order. */
  function CreatedNames(calls: seq<Call>): seq<string> {
    if calls == [] then []
    else if calls[0].CreateKey? then [calls[0].keyName] + CreatedNames(calls[1..])
    else CreatedNames(calls[1..])
  }

  /** The contents of the `create_key` calls of a call log, in order. */
  function CreatedKeys(calls: seq<Call>): seq<Option<string>> {
    if calls == [] then []
    else if calls[0].CreateKey? then [calls[0].publicKey] + CreatedKeys(calls[1..])
    else CreatedKeys(calls[1..])
  }

  function Optional(keys: seq<string>): (r: seq<Option<string>>)
    ensures |r| == |keys| && forall i :: 0 <= i < |keys| ==> r[i] == Some(keys[i])
  {
    if keys == [] then [] else [Some(keys[0])] + Optional(keys[1..])
  }

  /** The loop from its state: `names` is `key_names`, `n` is `offset`, and
      `keys` the keys still to upload. A candidate name is checked against
      `avoid + names`; the module passes no `avoid`. */
  function UploadFrom(prefix: string, avoid: seq<string>, names: seq<string>, n: nat,
                      keys: seq<string>, o: Oracle): Uploaded
    decreases |keys|
  {
    if keys == [] then Uploaded(Ok(Some(names)), [], [])
    else
      var m := NextFree(prefix, avoid + names, n);
      var call := CreateKey(KeyName(prefix, m), Some(keys[0]));
      match o.fault(call)
      case Some(e) =>
        Uploaded(Err("Pub key did not upload " + keys[0] + " to keyring", e.message), [call], [m])
      case None =>
        var rest := UploadFrom(prefix, avoid, names + [KeyName(prefix, m)], m, keys[1..], o);
        Uploaded(rest.res, [call] + rest.calls, [m] + rest.offsets)
  }

  /** The whole operation, checking candidate names against `avoid` as well
      as `key_names`. */
  function Upload(prefix: string, avoid: seq<string>, keysPath: Option<string>,
                  lines: seq<string>, order: seq<string>, snap: Snapshot, o: Oracle): Uploaded
  {
    if !Truthy(keysPath) then Uploaded(Ok(None), [], [])
    else
      match o.fault(ListKeypairs)
      case Some(e) => Uploaded(Err("Failed to get keypairs", e.message), [ListKeypairs], [])
      case None =>
        var rest := UploadFrom(prefix, avoid, MatchingNames(snap.keypairs, Keys(lines)), 1, order, o);
        Uploaded(rest.res, [ListKeypairs] + rest.calls, rest.offsets)
  }

  // ---------------------------------------------------------------------
  // The loop as written

  /** `upload_keys_to_keyring` with its two nested loops. */
  method UploadKeysToKeyring(prefix: string, keysPath: Option<string>, lines: seq<string>,
                             order: seq<string>, snap: Snapshot, o: Oracle)
    returns (r: Result<Option<seq<string>>>, calls: seq<Call>)
    requires Enumerates(order, NewKeys(snap.keypairs, Keys(lines)))
    ensures r == Upload(prefix, [], keysPath, lines, order, snap, o).res
    ensures calls == Upload(prefix, [], keysPath, lines, order, snap, o).calls
    ensures !Truthy(keysPath) ==> r == Ok(None) && calls == []
  {
    if !Truthy(keysPath) {
      return Ok(None), [];
    }
    calls := [ListKeypairs];
    if o.fault(ListKeypairs).Some? {
      return Err("Failed to get keypairs", o.fault(ListKeypairs).value.message), calls;
    }
    ghost var whole := UploadFrom(prefix, [], MatchingNames(snap.keypairs, Keys(lines)), 1, order, o);
    var keyNames := MatchingNames(snap.keypairs, Keys(lines));
    var offset: nat := 1;
    var name := KeyName(prefix, offset);
    var i := 0;
    while i < |order|
      invariant i <= |order|
      invariant name == KeyName(prefix, offset)
      invariant whole.res == UploadFrom(prefix, [], keyNames, offset, order[i..], o).res
      invariant [ListKeypairs] + whole.calls == calls + UploadFrom(prefix, [], keyNames, offset, order[i..], o).calls
    {
      ghost var start := offset;
      while name in keyNames
        invariant start <= offset && name == KeyName(prefix, offset)
        invariant NextFree(prefix, [] + keyNames, offset) == NextFree(prefix, [] + keyNames, start)
        decreases Pow10(MaxLen(keyNames)) - offset
      {
        assert [] + keyNames == keyNames;
        TakenNameBound(prefix, keyNames, offset);
        offset := offset + 1;
        name := KeyName(prefix, offset);
      }
      assert [] + keyNames == keyNames;
      var call := CreateKey(name, Some(order[i]));
      assert order[i..][1..] == order[i + 1..];
      calls := calls + [call];
      if o.fault(call).Some? {
        return Err("Pub key did not upload " + order[i] + " to keyring", o.fault(call).value.message), calls;
      }
      keyNames := keyNames + [name];
      i := i + 1;
    }
    r := Ok(Some(keyNames));
  }

  /** The intended operation: a candidate name is also checked against the
      names of every keypair already in the keyring. */
  function UploadKeysToKeyringFixed(prefix: string, keysPath: Option<string>, lines: seq<string>,
                                    order: seq<string>, snap: Snapshot, o: Oracle): (u: Uploaded)
    requires Enumerates(order, NewKeys(snap.keypairs, Keys(lines)))
    ensures forall i :: 0 <= i < |snap.keypairs| ==> snap.keypairs[i].name !in CreatedNames(u.calls)
  {
    var u := Upload(prefix, AllNames(snap.keypairs), keysPath, lines, order, snap, o);
    UploadAvoids(prefix, AllNames(snap.keypairs), keysPath, lines, order, snap, o);
    u
  }

  // ---------------------------------------------------------------------
  // Properties

  lemma {:induction false} CreatedNamesAppend(a: seq<Call>, b: seq<Call>)
    ensures CreatedNames(a + b) == CreatedNames(a) + CreatedNames(b)
    ensures CreatedKeys(a + b) == CreatedKeys(a) + CreatedKeys(b)
  {
    if a != [] {
      assert (a + b)[1..] == a[1..] + b;
      CreatedNamesAppend(a[1..], b);
    } else {
      assert a + b == b;
    }
  }

  /** Each generated name is `prefix` followed by the offset the loop used;
      offsets are positive and strictly increase, so they never repeat. */
  lemma {:induction false} OffsetsShape(prefix: string, avoid: seq<string>, names: seq<string>,
                                        n: nat, keys: seq<string>, o: Oracle)
    requires n >= 1
    ensures var u := UploadFrom(prefix, avoid, names, n, keys, o);
      && |u.offsets| == |CreatedNames(u.calls)|
      && (forall i :: 0 <= i < |u.offsets| ==> n <= u.offsets[i] && CreatedNames(u.calls)[i] == KeyName(prefix, u.offsets[i]))
      && (forall i, j :: 0 <= i < j < |u.offsets| ==> u.offsets[i] < u.offsets[j])
    decreases |keys|
  {
    if keys != [] {
      var m := NextFree(prefix, avoid + names, n);
      var call := CreateKey(KeyName(prefix, m), Some(keys[0]));
      if o.fault(call).None? {
        var names' := names + [KeyName(prefix, m)];
        OffsetsShape(prefix, avoid, names', m, keys[1..], o);
        var rest := UploadFrom(prefix, avoid, names', m, keys[1..], o);
        assert CreatedNames([call] + rest.calls) == [KeyName(prefix, m)] + CreatedNames(rest.calls) by {
          assert ([call] + rest.calls)[1..] == rest.calls;
        }
        // the next offset starts at m, whose name is now taken
        if |rest.offsets| > 0 {
          assert rest.offsets[0] == NextFree(prefix, avoid + names', m);
          assert KeyName(prefix, m) in avoid + names';
        }
      } else {
        assert CreatedNames([call]) == [KeyName(prefix, m)];
      }
    }
  }

  /** The names `g` avoid `taken` and repeat none: each is free when it is
      chosen, if `taken` is what was taken before the first. */
  ghost predicate Fresh(g: seq<string>, taken: seq<string>) {
    && (forall i :: 0 <= i < |g| ==> g[i] !in taken)
    && (forall i, j :: 0 <= i < j < |g| ==> g[i] != g[j])
  }

  /** Freshness of the names the loop generates from a given state. */
  lemma {:induction false} UploadFromFresh(prefix: string, avoid: seq<string>, names: seq<string>,
                                           n: nat, keys: seq<string>, o: Oracle)
    ensures Fresh(CreatedNames(UploadFrom(prefix, avoid, names, n, keys, o).calls), avoid + names)
    decreases |keys|
  {
    if keys != [] {
      var m := NextFree(prefix, avoid + names, n);
      var name := KeyName(prefix, m);
      var call := CreateKey(name, Some(keys[0]));
      if o.fault(call).None? {
        var names' := names + [name];
        UploadFromFresh(prefix, avoid, names', m, keys[1..], o);
        var rest := UploadFrom(prefix, avoid, names', m, keys[1..], o);
        var g' := CreatedNames(rest.calls);
        assert Fresh(g', avoid + names');
        assert CreatedNames([call] + rest.calls) == [name] + g' by {
          assert ([call] + rest.calls)[1..] == rest.calls;
        }
        assert forall i :: 0 <= i < |g'| ==> g'[i] != name && g'[i] !in avoid + names by {
          forall i | 0 <= i < |g'| ensures g'[i] != name && g'[i] !in avoid + names {
            assert g'[i] !in avoid + names';
          }
        }
      } else {
        assert CreatedNames([call]) == [name];
      }
    }
  }

  /** One upload per key of `keys`, in order, until the first one that
      fails; on success every key was uploaded and `key_names` ends with the
      generated names. */
  lemma {:induction false} UploadFromKeys(prefix: string, avoid: seq<string>, names: seq<string>,
                                          n: nat, keys: seq<string>, o: Oracle)
    ensures var u := UploadFrom(prefix, avoid, names, n, keys, o);
      && |CreatedKeys(u.calls)| <= |keys|
      && CreatedKeys(u.calls) == Optional(keys[..|CreatedKeys(u.calls)|])
      && (forall i :: 0 <= i < |u.calls| ==> u.calls[i].CreateKey?)
      && !u.res.Abort?
      && (u.res.Ok? ==> |CreatedKeys(u.calls)| == |keys|)
      && (u.res.Ok? ==> u.res.value == Some(names + CreatedNames(u.calls)))
      && (u.res.Err? ==> |u.calls| >= 1 && o.fault(u.calls[|u.calls| - 1]).Some?)
    decreases |keys|
  {
    if keys != [] {
      var m := NextFree(prefix, avoid + names, n);
      var name := KeyName(prefix, m);
      var call := CreateKey(name, Some(keys[0]));
      if o.fault(call).None? {
        var names' := names + [name];
        UploadFromKeys(prefix, avoid, names', m, keys[1..], o);
        var rest := UploadFrom(prefix, avoid, names', m, keys[1..], o);
        assert ([call] + rest.calls)[1..] == rest.calls;
        var k := |CreatedKeys(rest.calls)|;
        assert keys[..k + 1] == [keys[0]] + keys[1..][..k];
        assert CreatedNames([call] + rest.calls) == [name] + CreatedNames(rest.calls);
        assert names' + CreatedNames(rest.calls) == names + ([name] + CreatedNames(rest.calls));
      } else {
        assert CreatedKeys([call]) == [Some(keys[0])];
        assert keys[..1] == [keys[0]];
      }
    } else {
      assert keys[..0] == [];
      assert names + CreatedNames([]) == names;
    }
  }

  /** Names generated by `Upload` avoid `avoid`, the matching names, and one
      another. */
  lemma UploadAvoids(prefix: string, avoid: seq<string>, keysPath: Option<string>,
                     lines: seq<string>, order: seq<string>, snap: Snapshot, o: Oracle)
    ensures var g := CreatedNames(Upload(prefix, avoid, keysPath, lines, order, snap, o).calls);
      forall i :: 0 <= i < |g| ==> g[i] !in avoid
    ensures var g := CreatedNames(Upload(prefix, avoid, keysPath, lines, order, snap, o).calls);
      Fresh(g, avoid + MatchingNames(snap.keypairs, Keys(lines)))
  {
    var u := Upload(prefix, avoid, keysPath, lines, order, snap, o);
    if Truthy(keysPath) && o.fault(ListKeypairs).None? {
      var names := MatchingNames(snap.keypairs, Keys(lines));
      var rest := UploadFrom(prefix, avoid, names, 1, order, o);
      UploadFromFresh(prefix, avoid, names, 1, order, o);
      assert ([ListKeypairs] + rest.calls)[1..] == rest.calls;
      var g := CreatedNames(rest.calls);
      assert Fresh(g, avoid + names);
    } else if Truthy(keysPath) {
      assert CreatedNames([ListKeypairs]) == [];
    }
  }

  /** The freshness the module promises: every uploaded name is `KEY_PREFIX`
      followed by a positive integer, is not in `key_names` when it is chosen
      (so not a matching key's name), and differs from every other uploaded
      name. */
  lemma GeneratedNamesFresh(prefix: string, keysPath: Option<string>, lines: seq<string>,
                            order: seq<string>, snap: Snapshot, o: Oracle)
    ensures var u := Upload(prefix, [], keysPath, lines, order, snap, o);
      var g := CreatedNames(u.calls);
      && |u.offsets| == |g|
      && (forall i :: 0 <= i < |g| ==> u.offsets[i] >= 1 && g[i] == KeyName(prefix, u.offsets[i]))
      && (forall i :: 0 <= i < |g| ==> g[i] !in MatchingNames(snap.keypairs, Keys(lines)))
      && (forall i, j :: 0 <= i < j < |g| ==> g[i] != g[j])
  {
    var u := Upload(prefix, [], keysPath, lines, order, snap, o);
    if Truthy(keysPath) && o.fault(ListKeypairs).None? {
      var names := MatchingNames(snap.keypairs, Keys(lines));
      var rest := UploadFrom(prefix, [], names, 1, order, o);
      OffsetsShape(prefix, [], names, 1, order, o);
      UploadFromFresh(prefix, [], names, 1, order, o);
      assert ([ListKeypairs] + rest.calls)[1..] == rest.calls;
      var g := CreatedNames(rest.calls);
      assert Fresh(g, [] + names);
      assert [] + names == names;
    } else if Truthy(keysPath) {
      assert CreatedNames([ListKeypairs]) == [];
    }
  }

  /** One upload per distinct key the keyring does not hold, and no other
      upload: on success the uploaded contents are exactly `new_keys`, each
      once; on failure they are a prefix of that enumeration. */
  lemma OneUploadPerNewKey(prefix: string, keysPath: Option<string>, lines: seq<string>,
                           order: seq<string>, snap: Snapshot, o: Oracle)
    requires Enumerates(order, NewKeys(snap.keypairs, Keys(lines)))
    requires Truthy(keysPath)
    ensures var u := Upload(prefix, [], keysPath, lines, order, snap, o);
      var created := CreatedKeys(u.calls);
      && |created| <= |order|
      && created == Optional(order[..|created|])
      && (u.res.Ok? ==> forall k :: Some(k) in created <==> k in NewKeys(snap.keypairs, Keys(lines)))
      && (forall i, j :: 0 <= i < j < |created| ==> created[i] != created[j])
  {
    var u := Upload(prefix, [], keysPath, lines, order, snap, o);
    if o.fault(ListKeypairs).None? {
      var names := MatchingNames(snap.keypairs, Keys(lines));
      var rest := UploadFrom(prefix, [], names, 1, order, o);
      UploadFromKeys(prefix, [], names, 1, order, o);
      assert ([ListKeypairs] + rest.calls)[1..] == rest.calls;
      var created := CreatedKeys(rest.calls);
      assert CreatedKeys(u.calls) == created;
      if u.res.Ok? {
        assert order[..|created|] == order;
      }
    } else {
      assert CreatedKeys([ListKeypairs]) == [];
    }
  }

  /** On success the returned list is the names of the existing keypairs
      whose content is in the file, in listing order, followed by the
      generated names in upload order. */
  lemma ResultIsMatchingThenGenerated(prefix: string, keysPath: Option<string>, lines: seq<string>,
                                      order: seq<string>, snap: Snapshot, o: Oracle)
    requires Truthy(keysPath)
    ensures var u := Upload(prefix, [], keysPath, lines, order, snap, o);
      && !u.res.Abort?
      && (u.res.Ok? ==> u.res.value == Some(MatchingNames(snap.keypairs, Keys(lines)) + CreatedNames(u.calls)))
      && (forall i :: 0 <= i < |u.offsets| - 1 ==> u.offsets[i] < u.offsets[i + 1])
  {
    var u := Upload(prefix, [], keysPath, lines, order, snap, o);
    if o.fault(ListKeypairs).None? {
      var names := MatchingNames(snap.keypairs, Keys(lines));
      var rest := UploadFrom(prefix, [], names, 1, order, o);
      UploadFromKeys(prefix, [], names, 1, order, o);
      OffsetsShape(prefix, [], names, 1, order, o);
      assert ([ListKeypairs] + rest.calls)[1..] == rest.calls;
    }
  }

  // ---------------------------------------------------------------------
  // Finding: freshness is only checked against the matching names

  /** A keyring holding `key1` with other content, and a file with one new
      key: the loop uploads the new key under the taken name `key1`. */
  lemma UploadReusesUnrelatedName()
    ensures var snap := Snapshot([], [], [Keypair("key1", "ssh-rsa AAAA")]);
      var u := Upload("key", [], Some("keys.pub"), ["ssh-rsa BBBB"], ["ssh-rsa BBBB"], snap, QuietOracle());
      && Enumerates(["ssh-rsa BBBB"], NewKeys(snap.keypairs, Keys(["ssh-rsa BBBB"])))
      && u.calls == [ListKeypairs, CreateKey("key1", Some("ssh-rsa BBBB"))]
      && "key1" in AllNames(snap.keypairs)
  {
    var snap := Snapshot([], [], [Keypair("key1", "ssh-rsa AAAA")]);
    var lines := ["ssh-rsa BBBB"];
    assert Keys(lines) == lines;
    assert MatchingNames(snap.keypairs, lines) == [];
    assert NatToString(1) == "1";
    assert KeyName("key", 1) == "key1";
    assert NextFree("key", [] + [], 1) == 1;
    var ks := NewKeys(snap.keypairs, lines);
    assert "ssh-rsa BBBB" in ks;
    assert forall k :: k in ks ==> k == "ssh-rsa BBBB";
  }

  /** The same input under the intended definition picks `key2`. */
  lemma FixedUploadSkipsUnrelatedName()
    ensures var snap := Snapshot([], [], [Keypair("key1", "ssh-rsa AAAA")]);
      var u := UploadKeysToKeyringFixed("key", Some("keys.pub"), ["ssh-rsa BBBB"], ["ssh-rsa BBBB"], snap, QuietOracle());
      u.calls == [ListKeypairs, CreateKey("key2", Some("ssh-rsa BBBB"))]
  {
    var snap := Snapshot([], [], [Keypair("key1", "ssh-rsa AAAA")]);
    var lines := ["ssh-rsa BBBB"];
    assert Keys(lines) == lines;
    assert MatchingNames(snap.keypairs, lines) == [];
    assert AllNames(snap.keypairs) == ["key1"];
    assert NatToString(1) == "1" && NatToString(2) == "2";
    assert KeyName("key", 1) == "key1" && KeyName("key", 2) == "key2";
    assert NextFree("key", ["key1"] + [], 2) == 2;
    assert NextFree("key", ["key1"] + [], 1) == 2;
    var ks := NewKeys(snap.keypairs, lines);
    assert "ssh-rsa BBBB" in ks;
    assert forall k :: k in ks ==> k == "ssh-rsa BBBB";
  }
}

=== FILE: public_ip.dfy ===
/** The floating-IP module: discovery of one IP by id or address, reserving
    a new IP, picking a free one, and the `present` / `absent` state
    functions. */
module PublicIp {
  import opened Base
  import opened Cloud

  /** The module's parameters; `projectId` is `self.project_id`. */
  datatype Params = Params(id: Option<string>, address: Option<string>, wait: bool,
                           projectId: Option<string>)

  /** The address scan: `address == ip['floating_ip_address']`. */
  predicate HasAddress(address: string, ip: FloatingIp) {
    ip.address == address
  }

  /** An IP no port holds: `not ip['port_id']`. */
  predicate IsFree(ip: FloatingIp) {
    !Truthy(ip.portId)
  }

  // ---------------------------------------------------------------------
  // Discovery, reserve, next available

  /** `discover`: an id, when given, is the only lookup (a 404 means no IP,
      any other error fails the run); otherwise an address selects the
      first IP in listing order with that address. The listing is not
      guarded, so its error escapes the module. */
  function Discover(p: Params, snap: Snapshot, o: Oracle): (r: Step<Option<FloatingIp>>)
    ensures Mutations(r.calls) == []
    ensures Truthy(p.id) ==>
      var f := o.fault(GetFloatingIpDetails(p.id.value));
      && r.calls == [GetFloatingIpDetails(p.id.value)]
      && (r.res.Err? <==> f.Some? && f.value.status != NotFound)
      && (f.Some? && f.value.status == NotFound ==> r.res == Ok(None))
      && (f.None? ==> r.res == Ok(IpWithId(snap.ips, p.id.value)))
    ensures !Truthy(p.id) && Truthy(p.address) ==>
      && r.calls == [ListFloatingIps]
      && (r.res.Abort? <==> o.fault(ListFloatingIps).Some?)
      && (r.res == Ok(None) <==>
            o.fault(ListFloatingIps).None? &&
            forall i :: 0 <= i < |snap.ips| ==> !HasAddress(p.address.value, snap.ips[i]))
      && (r.res.Ok? && r.res.value.Some? ==>
            exists k :: 0 <= k < |snap.ips| && snap.ips[k] == r.res.value.value
              && HasAddress(p.address.value, snap.ips[k])
              && forall j :: 0 <= j < k ==> !HasAddress(p.address.value, snap.ips[j]))
    ensures !Truthy(p.id) && !Truthy(p.address) ==> r == Step(Ok(None), [])
    ensures r.res.Abort? ==> !Truthy(p.id)
  {
    if Truthy(p.id) then
      var call := GetFloatingIpDetails(p.id.value);
      match o.fault(call)
      case Some(e) =>
        if e.status == NotFound then Step(Ok(None), [call])
        else Step(Err("Error while looking for ip", e.message), [call])
      case None => Step(Ok(IpWithId(snap.ips, p.id.value)), [call])
    else if Truthy(p.address) then
      match o.fault(ListFloatingIps)
      case Some(e) => Step(Abort("ClientError from list_floatingips: " + e.message), [ListFloatingIps])
      case None =>
        var address := p.address.value;
        Step(Ok(FirstMatch(snap.ips, (ip: FloatingIp) => HasAddress(address, ip))), [ListFloatingIps])
    else Step(Ok(None), [])
  }

  /** `reserve`: one `create_floatingip` for the requested address (or
      none) in the project. */
  function Reserve(p: Params, o: Oracle): (r: Step<FloatingIp>)
    ensures !r.res.Abort?
    ensures r.calls == [CreateFloatingIp(p.address, p.projectId)]
    ensures r.res.Ok? <==> o.fault(CreateFloatingIp(p.address, p.projectId)).None?
    ensures r.res.Ok? ==> r.res.value == o.newIp
  {
    var call := CreateFloatingIp(p.address, p.projectId);
    match o.fault(call)
    case Some(e) => Step(Err("Failed to create floating IP", e.message), [call])
    case None => Step(Ok(o.newIp), [call])
  }

  /** `next_available`: the first IP in listing order that no port holds;
      only when there is none, a fresh reservation. */
  function NextAvailable(p: Params, snap: Snapshot, o: Oracle): (r: Step<FloatingIp>)
    ensures !r.res.Abort? && |r.calls| > 0 && r.calls[0] == ListFloatingIps
    ensures o.fault(ListFloatingIps).Some? ==>
      r == Step(Err("Error while looking for free ips", ""), [ListFloatingIps])
    ensures o.fault(ListFloatingIps).None? && (exists i :: 0 <= i < |snap.ips| && IsFree(snap.ips[i])) ==>
      && r.calls == [ListFloatingIps]
      && r.res.Ok?
      && exists k :: 0 <= k < |snap.ips| && snap.ips[k] == r.res.value && IsFree(snap.ips[k])
           && forall j :: 0 <= j < k ==> !IsFree(snap.ips[j])
    ensures o.fault(ListFloatingIps).None? && (forall i :: 0 <= i < |snap.ips| ==> !IsFree(snap.ips[i])) ==>
      && Mutations(r.calls) == [CreateFloatingIp(p.address, p.projectId)]
      && r.res == Reserve(p, o).res
  {
    match o.fault(ListFloatingIps)
    case Some(_) => Step(Err("Error while looking for free ips", ""), [ListFloatingIps])
    case None =>
      match FirstMatch(snap.ips, IsFree)
      case Some(ip) => Step(Ok(ip), [ListFloatingIps])
      case None =>
        var s := Reserve(p, o);
        MutationsAppend([ListFloatingIps], s.calls);
        Step(s.res, [ListFloatingIps] + s.calls)
  }

  // ---------------------------------------------------------------------
  // State functions

  /** `present`: a discovered IP is returned unchanged; otherwise the given
      address is reserved, or, with no address, a free IP is picked or a
      new one reserved. Both of the latter report a change, even when an
      existing free IP is picked. */
  function Present(p: Params, snap: Snapshot, o: Oracle): (r: Run<FloatingIp>)
    ensures r.out.Crash? ==> !Truthy(p.id) && Truthy(p.address)
    ensures var d := Discover(p, snap, o);
      && (d.res.Ok? && d.res.value.Some? ==> r == Run(Exit(false, d.res.value.value), d.calls))
      && (d.res == Ok(None) && Truthy(p.address) ==>
            && Mutations(r.calls) == [CreateFloatingIp(p.address, p.projectId)]
            && (r.out.Exit? <==> o.fault(CreateFloatingIp(p.address, p.projectId)).None?)
            && (r.out.Exit? ==> r.out == Exit(true, o.newIp)))
      && (d.res == Ok(None) && !Truthy(p.address) ==>
            && r.calls == d.calls + NextAvailable(p, snap, o).calls
            && (r.out.Exit? <==> NextAvailable(p, snap, o).res.Ok?)
            && (r.out.Exit? ==> r.out == Exit(true, NextAvailable(p, snap, o).res.value)))
      && (!d.res.Ok? ==> !r.out.Exit? && Mutations(r.calls) == [])
  {
    var d := Discover(p, snap, o);
    if !d.res.Ok? then Halt(d)
    else match d.res.value
      case Some(ip) => Run(Exit(false, ip), d.calls)
      case None =>
        var s := if Truthy(p.address) then Reserve(p, o) else NextAvailable(p, snap, o);
        MutationsAppend(d.calls, s.calls);
        if !s.res.Ok? then After(d.calls, Halt(s))
        else Run(Exit(true, s.res.value), d.calls + s.calls)
  }

  /** The port release of `absent`: a `delete_port` only when the IP is
      held by a port. */
  function Release(ip: FloatingIp, o: Oracle): (r: Step<()>)
    ensures !r.res.Abort?
    ensures Truthy(ip.portId) ==>
      && r.calls == [DeletePort(ip.portId.value)]
      && (r.res.Ok? <==> o.fault(DeletePort(ip.portId.value)).None?)
    ensures r.res.Err? ==> r.res.msg == "Failed to disconnect IP"
    ensures !Truthy(ip.portId) ==> r == Step(Ok(()), [])
  {
    if Truthy(ip.portId) then Attempt(DeletePort(ip.portId.value), o, "Failed to disconnect IP")
    else Step(Ok(()), [])
  }

  /** The calls of `absent` that can change the cloud. */
  function ReleaseMutations(ip: FloatingIp): seq<Call> {
    if Truthy(ip.portId) then [DeletePort(ip.portId.value)] else []
  }

  /** The part of `absent` as written that follows finding the IP: the
      port, if any, is deleted; then the wait and the reported change depend
      on the `wait` flag alone. */
  function DisconnectAsWritten(p: Params, ip: FloatingIp, o: Oracle): (r: Run<string>)
    ensures !r.out.Crash?
    ensures Mutations(r.calls) == ReleaseMutations(ip)
    ensures forall i :: 0 <= i < |r.calls| ==> !r.calls[i].DeleteFloatingIp?
    ensures r.out.Exit? <==> Release(ip, o).res.Ok?
    ensures r.out.Exit? ==> r.out == if p.wait then Exit(true, "IP disconnected") else Exit(false, "IP not used")
    ensures r.out.Exit? && p.wait ==> r.calls == Release(ip, o).calls + [WaitPortWhile(ip.portId, "ACTIVE")]
    ensures !(r.out.Exit? && p.wait) ==> r.calls == Release(ip, o).calls
  {
    var s := Release(ip, o);
    if !s.res.Ok? then Halt(s)
    else if p.wait then
      var waits := [WaitPortWhile(ip.portId, "ACTIVE")];
      MutationsAppend(s.calls, waits);
      Run(Exit(true, "IP disconnected"), s.calls + waits)
    else Run(Exit(false, "IP not used"), s.calls)
  }

  /** `absent` as written: a deleted port without `wait` reads "IP not
      used", and an unused IP with `wait` reads "IP disconnected". The IP
      itself is never released. */
  function Absent(p: Params, snap: Snapshot, o: Oracle): (r: Run<string>)
    ensures r.out.Crash? ==> !Truthy(p.id) && Truthy(p.address)
    ensures forall i :: 0 <= i < |r.calls| ==> !r.calls[i].DeleteFloatingIp?
    ensures var d := Discover(p, snap, o);
      && (d.res == Ok(None) ==> r == Run(Exit(false, "No such IP"), d.calls))
      && (d.res.Ok? && d.res.value.Some? ==>
            var ip := d.res.value.value;
            && Mutations(r.calls) == ReleaseMutations(ip)
            && (r.out.Exit? <==> Release(ip, o).res.Ok?)
            && (r.out.Exit? ==> r.out == if p.wait then Exit(true, "IP disconnected")
                                          else Exit(false, "IP not used")))
      && (!d.res.Ok? ==> !r.out.Exit? && Mutations(r.calls) == [])
  {
    var d := Discover(p, snap, o);
    if !d.res.Ok? then Halt(d)
    else match d.res.value
      case None => Run(Exit(false, "No such IP"), d.calls)
      case Some(ip) =>
        var s := DisconnectAsWritten(p, ip, o);
        MutationsAppend(d.calls, s.calls);
        After(d.calls, s)
  }

  /** The part of the intended `absent` that follows finding the IP. */
  function Disconnect(p: Params, ip: FloatingIp, o: Oracle): (r: Run<string>)
    ensures !r.out.Crash?
    ensures Mutations(r.calls) == ReleaseMutations(ip)
    ensures forall i :: 0 <= i < |r.calls| ==> !r.calls[i].DeleteFloatingIp?
    ensures r.out.Exit? <==> Release(ip, o).res.Ok?
    ensures r.out.Exit? ==> (r.out.changed <==> Truthy(ip.portId))
    ensures r.out.Exit? && p.wait && Truthy(ip.portId) ==>
      r.calls == Release(ip, o).calls + [WaitPortWhile(ip.portId, "ACTIVE")]
    ensures !(r.out.Exit? && p.wait && Truthy(ip.portId)) ==> r.calls == Release(ip, o).calls
  {
    var s := Release(ip, o);
    if !s.res.Ok? then Halt(s)
    else if Truthy(ip.portId) then
      var waits := WaitIf(p.wait, WaitPortWhile(ip.portId, "ACTIVE"));
      MutationsAppend(s.calls, waits);
      Run(Exit(true, "IP disconnected"), s.calls + waits)
    else Run(Exit(false, "IP not used"), s.calls)
  }

  /** `absent` as evidently intended: the wait and the change belong to the
      port release. */
  function AbsentIntended(p: Params, snap: Snapshot, o: Oracle): (r: Run<string>)
    ensures r.out.Crash? ==> !Truthy(p.id) && Truthy(p.address)
    ensures forall i :: 0 <= i < |r.calls| ==> !r.calls[i].DeleteFloatingIp?
    ensures var d := Discover(p, snap, o);
      && (d.res == Ok(None) ==> r == Run(Exit(false, "No such IP"), d.calls))
      && (d.res.Ok? && d.res.value.Some? ==>
            var ip := d.res.value.value;
            && Mutations(r.calls) == ReleaseMutations(ip)
            && (r.out.Exit? <==> Release(ip, o).res.Ok?))
      && (!d.res.Ok? ==> !r.out.Exit? && Mutations(r.calls) == [])
    ensures r.out.Exit? ==> (r.out.changed <==> Mutations(r.calls) != [])
  {
    var d := Discover(p, snap, o);
    if !d.res.Ok? then Halt(d)
    else match d.res.value
      case None => Run(Exit(false, "No such IP"), d.calls)
      case Some(ip) =>
        var s := Disconnect(p, ip, o);
        MutationsAppend(d.calls, s.calls);
        After(d.calls, s)
  }

  // ---------------------------------------------------------------------
  // Properties

  /** Once the reserved address is in the listing, a second `present` with
      the same address finds it and reports no change. */
  lemma {:induction false} PresentConverges(p: Params, snap: Snapshot, o: Oracle, o2: Oracle)
    requires !Truthy(p.id) && Truthy(p.address)
    requires o.newIp.address == p.address.value
    requires o2.fault(ListFloatingIps).None?
    ensures var r := Present(p, snap, o);
      r.out.Exit? ==>
        var r2 := Present(p, Snapshot(snap.vms, snap.ips + [r.out.payload], snap.keypairs), o2);
        && r2.out.Exit? && !r2.out.changed
        && r2.out.payload.address == p.address.value
        && Mutations(r2.calls) == []
  {
    var r := Present(p, snap, o);
    if r.out.Exit? {
      var ips := snap.ips + [r.out.payload];
      var snap2 := Snapshot(snap.vms, ips, snap.keypairs);
      var d := Discover(p, snap, o);
      assert HasAddress(p.address.value, r.out.payload) by {
        if !(d.res.Ok? && d.res.value.Some?) {
          assert r.out.payload == o.newIp;
        }
      }
      assert HasAddress(p.address.value, ips[|ips| - 1]);
      var d2 := Discover(p, snap2, o2);
      assert d2.res.Ok? && d2.res.value.Some?;
    }
  }

  /** The listing once a port release took effect: the released IP,
      wherever it is listed, is held by no port; every other IP is as it
      was. */
  function ReleasePort(ips: seq<FloatingIp>, ip: FloatingIp): (r: seq<FloatingIp>)
    ensures |r| == |ips|
    ensures forall i :: 0 <= i < |ips| ==> r[i] == (if ips[i] == ip then ip.(portId := None) else ips[i])
  {
    seq(|ips|, i requires 0 <= i < |ips| => if ips[i] == ip then ip.(portId := None) else ips[i])
  }

  /** After the intended `absent` found an IP and released its port, a
      second run against the same listing with that port gone finds the IP
      again, unused, and changes nothing. */
  lemma {:induction false} AbsentIntendedConverges(p: Params, snap: Snapshot, o: Oracle, o2: Oracle)
    requires Truthy(p.id) ==> o2.fault(GetFloatingIpDetails(p.id.value)).None?
    requires !Truthy(p.id) ==> o2.fault(ListFloatingIps).None?
    ensures var d := Discover(p, snap, o);
      AbsentIntended(p, snap, o).out.Exit? && d.res.Ok? && d.res.value.Some? ==>
        var r2 := AbsentIntended(p, Snapshot(snap.vms, ReleasePort(snap.ips, d.res.value.value), snap.keypairs), o2);
        r2.out == Exit(false, "IP not used") && Mutations(r2.calls) == []
  {
    var d := Discover(p, snap, o);
    if d.res.Ok? && d.res.value.Some? {
      var ip := d.res.value.value;
      var ips := snap.ips;
      var ips2 := ReleasePort(ips, ip);
      var snap2 := Snapshot(snap.vms, ips2, snap.keypairs);
      var d2 := Discover(p, snap2, o2);
      if Truthy(p.id) {
        var id := p.id.value;
        var k :| 0 <= k < |ips| && ips[k] == ip && forall j :: 0 <= j < k ==> ips[j].id != id;
        assert ips2[k].id == id;
        var found := IpWithId(ips2, id);
        var k2 :| 0 <= k2 < |ips2| && ips2[k2] == found.value && forall j :: 0 <= j < k2 ==> ips2[j].id != id;
        assert k2 == k;
        assert d2.res == Ok(Some(ip.(portId := None)));
      } else {
        var a := p.address.value;
        var k :| 0 <= k < |ips| && ips[k] == ip && HasAddress(a, ips[k])
          && forall j :: 0 <= j < k ==> !HasAddress(a, ips[j]);
        assert HasAddress(a, ips2[k]);
        var k2 :| 0 <= k2 < |ips2| && ips2[k2] == d2.res.value.value && HasAddress(a, ips2[k2])
          && forall j :: 0 <= j < k2 ==> !HasAddress(a, ips2[j]);
        assert k2 == k;
        assert d2.res == Ok(Some(ip.(portId := None)));
      }
    }
  }

  /** `absent` as written reports the `wait` flag, not the release: a port
      deleted without `wait` is "no change", and with `wait` an IP no port
      held is "changed". */
  lemma AbsentReportsWaitFlag()
    ensures var held := FloatingIp("ip-1", "192.0.2.7", Some("port-1"), "public");
      var p := Params(Some("ip-1"), None, false, None);
      var r := Absent(p, Snapshot([], [held], []), QuietOracle());
      && Mutations(r.calls) == [DeletePort("port-1")]
      && r.out == Exit(false, "IP not used")
      && AbsentIntended(p, Snapshot([], [held], []), QuietOracle()).out == Exit(true, "IP disconnected")
    ensures var free := FloatingIp("ip-1", "192.0.2.7", None, "public");
      var p := Params(Some("ip-1"), None, true, None);
      var r := Absent(p, Snapshot([], [free], []), QuietOracle());
      && Mutations(r.calls) == []
      && r.out == Exit(true, "IP disconnected")
      && AbsentIntended(p, Snapshot([], [free], []), QuietOracle()).out == Exit(false, "IP not used")
  {
    var held := FloatingIp("ip-1", "192.0.2.7", Some("port-1"), "public");
    var free := FloatingIp("ip-1", "192.0.2.7", None, "public");
    assert IpWithId([held], "ip-1") == Some(held);
    assert IpWithId([free], "ip-1") == Some(free);
  }
}

=== FILE: server.dfy ===
/** The server module: discovery of one VM, and the four state functions
    `present`, `absent`, `active` and `stopped` that decide which calls to
    issue and whether the run reports a change. */
module Server {
  import opened Base
  import opened Cloud

  /** The module's parameters; `projectId` is `cloud.project_id`. */
  datatype Params = Params(
    id: Option<string>,
    name: Option<string>,
    imageId: Option<string>,
    flavorId: Option<string>,
    sshKey: Option<string>,
    privNetId: Option<string>,
    publicIpId: Option<string>,
    wait: bool,
    projectId: Option<string>)

  /** Python's `name == vm['name']`: an unset name matches no VM. */
  predicate NameIs(name: Option<string>, vm: Vm) {
    name == Some(vm.name)
  }

  // ---------------------------------------------------------------------
  // Discovery

  /** The name scan over `list_servers(detail=True)`, shared with the
      cyclades module. */
  function ScanByName(name: Option<string>, snap: Snapshot, o: Oracle): (r: Step<Option<Vm>>)
    ensures r.calls == [ListServers] && !r.res.Abort?
    ensures r.res.Err? <==> o.fault(ListServers).Some?
    ensures r.res.Err? ==> r.res.msg == "Could not list VMs"
    ensures r.res == Ok(None) <==>
      o.fault(ListServers).None? && forall i :: 0 <= i < |snap.vms| ==> !NameIs(name, snap.vms[i])
    ensures r.res.Ok? && r.res.value.Some? ==>
      exists k :: 0 <= k < |snap.vms| && snap.vms[k] == r.res.value.value && NameIs(name, snap.vms[k])
        && forall j :: 0 <= j < k ==> !NameIs(name, snap.vms[j])
  {
    match o.fault(ListServers)
    case Some(e) => Step(Err("Could not list VMs", e.message), [ListServers])
    case None => Step(Ok(FirstMatch(snap.vms, (vm: Vm) => NameIs(name, vm))), [ListServers])
  }

  /** `discover`: an id, when given, is the only lookup; a 404 there means
      no VM and any other error fails the run. Without an id, the first VM
      in listing order with the requested name. */
  function Discover(p: Params, snap: Snapshot, o: Oracle): (r: Step<Option<Vm>>)
    ensures !r.res.Abort? && Mutations(r.calls) == []
    ensures Truthy(p.id) ==> r.calls == [GetServerDetails(p.id.value)]
    ensures Truthy(p.id) ==>
      var f := o.fault(GetServerDetails(p.id.value));
      && (r.res.Err? <==> f.Some? && f.value.status != NotFound)
      && (r.res.Err? ==> r.res.msg == "Error while looking up VM")
      && (f.Some? && f.value.status == NotFound ==> r.res == Ok(None))
      && (f.None? ==> r.res == Ok(VmWithId(snap.vms, p.id.value)))
    ensures !Truthy(p.id) ==> r == ScanByName(p.name, snap, o)
  {
    if Truthy(p.id) then
      var call := GetServerDetails(p.id.value);
      match o.fault(call)
      case Some(e) =>
        if e.status == NotFound then Step(Ok(None), [call])
        else Step(Err("Error while looking up VM", e.message), [call])
      case None => Step(Ok(VmWithId(snap.vms, p.id.value)), [call])
    else ScanByName(p.name, snap, o)
  }

  /** `discover_ip`: the floating IP named by `public_ip_id`, if any. */
  function DiscoverIp(p: Params, snap: Snapshot, o: Oracle): (r: Step<Option<FloatingIp>>)
    ensures !r.res.Abort? && Mutations(r.calls) == []
    ensures !Truthy(p.publicIpId) ==> r == Step(Ok(None), [])
    ensures Truthy(p.publicIpId) ==>
      var f := o.fault(GetFloatingIpDetails(p.publicIpId.value));
      && r.calls == [GetFloatingIpDetails(p.publicIpId.value)]
      && (r.res.Err? <==> f.Some? && f.value.status != NotFound)
      && (r.res.Err? ==> r.res.msg == "Error while looking for ip")
      && (f.Some? && f.value.status == NotFound ==> r.res == Ok(None))
      && (f.None? ==> r.res == Ok(IpWithId(snap.ips, p.publicIpId.value)))
    ensures r.res.Ok? && r.res.value.Some? ==> r.res.value.value in snap.ips
  {
    if Truthy(p.publicIpId) then
      var call := GetFloatingIpDetails(p.publicIpId.value);
      match o.fault(call)
      case Some(e) =>
        if e.status == NotFound then Step(Ok(None), [call])
        else Step(Err("Error while looking for ip", e.message), [call])
      case None => Step(Ok(IpWithId(snap.ips, p.publicIpId.value)), [call])
    else Step(Ok(None), [])
  }

  // ---------------------------------------------------------------------
  // Create and delete

  /** The `networks` argument of `create_server`: the private network if
      given, then the floating IP's network and address if one was found. */
  function CreateNetworks(p: Params, ip: Option<FloatingIp>): (nets: seq<NetSpec>)
    ensures |nets| == (if Truthy(p.privNetId) then 1 else 0) + (if ip.Some? then 1 else 0)
    ensures Truthy(p.privNetId) ==> nets[0] == NetSpec(p.privNetId.value, None)
    ensures ip.Some? ==> nets[|nets| - 1] == NetSpec(ip.value.floatingNetworkId, Some(ip.value.address))
  {
    (if Truthy(p.privNetId) then [NetSpec(p.privNetId.value, None)] else [])
    + (match ip case Some(i) => [NetSpec(i.floatingNetworkId, Some(i.address))] case None => [])
  }

  /** `create`: one `create_server` carrying every parameter; with `wait`,
      the VM the wait returns, or the VM as created when the wait raises. */
  function Create(p: Params, snap: Snapshot, o: Oracle): (r: Step<Vm>)
    ensures !r.res.Abort?
    ensures var d := DiscoverIp(p, snap, o);
      && (d.res.Err? ==> r.res.Err? && Mutations(r.calls) == [])
      && (d.res.Ok? ==>
            var c := CreateServer(p.name, p.imageId, p.flavorId, p.projectId, p.sshKey,
                                  CreateNetworks(p, d.res.value));
            && Mutations(r.calls) == [c]
            && (r.res.Ok? <==> o.fault(c).None?))
    ensures r.res.Ok? && !p.wait ==> r.res.value == o.newServer
    ensures r.res.Ok? && p.wait && o.fault(WaitServerWhile(o.newServer.id, "BUILD")).Some? ==>
      r.res.value == o.newServer
    ensures r.res.Ok? && p.wait && o.fault(WaitServerWhile(o.newServer.id, "BUILD")).None? ==>
      r.res.value == o.waitedServer(WaitServerWhile(o.newServer.id, "BUILD"))
    ensures r.res.Ok? && p.wait ==>
      |r.calls| >= 2 && r.calls[|r.calls| - 1] == WaitServerWhile(o.newServer.id, "BUILD")
        && r.calls[|r.calls| - 2].CreateServer?
    ensures r.res.Ok? && !p.wait ==> |r.calls| >= 1 && r.calls[|r.calls| - 1].CreateServer?
  {
    var d := DiscoverIp(p, snap, o);
    match d.res
    case Err(m, det) => Step(Err(m, det), d.calls)
    case Abort(x) => Step(Abort(x), d.calls)
    case Ok(ip) =>
      var call := CreateServer(p.name, p.imageId, p.flavorId, p.projectId, p.sshKey,
                               CreateNetworks(p, ip));
      MutationsAppend(d.calls, [call]);
      match o.fault(call)
      case Some(e) => Step(Err("Failed to create server", e.message), d.calls + [call])
      case None =>
        var vm := o.newServer;
        if p.wait then
          var w := WaitServerWhile(vm.id, "BUILD");
          MutationsAppend(d.calls + [call], [w]);
          assert d.calls + [call, w] == d.calls + [call] + [w];
          Step(Ok(if o.fault(w).Some? then vm else o.waitedServer(w)), d.calls + [call, w])
        else Step(Ok(vm), d.calls + [call])
  }

  /** The one delete error the module tolerates. */
  const AlreadyDeleted := "Server has been deleted"

  /** `delete`: one `delete_server`; an error fails the run unless its
      message says the server is already gone; the wait never does. */
  function Delete(p: Params, vmId: string, o: Oracle): (r: Step<()>)
    ensures !r.res.Abort?
    ensures Mutations(r.calls) == [DeleteServer(vmId)] && r.calls[0] == DeleteServer(vmId)
    ensures r.res.Ok? <==>
      var f := o.fault(DeleteServer(vmId)); f.None? || Contains(f.value.message, AlreadyDeleted)
    ensures r.res.Ok? && p.wait ==> r.calls == [DeleteServer(vmId), WaitServerUntil(vmId, "DELETED")]
    ensures !(r.res.Ok? && p.wait) ==> r.calls == [DeleteServer(vmId)]
  {
    var call := DeleteServer(vmId);
    var waits := WaitIf(p.wait, WaitServerUntil(vmId, "DELETED"));
    MutationsAppend([call], waits);
    match o.fault(call)
    case Some(e) =>
      if !Contains(e.message, AlreadyDeleted) then Step(Err("Error deleting VM", e.message), [call])
      else Step(Ok(()), [call] + waits)
    case None => Step(Ok(()), [call] + waits)
  }

  /** A delete error is tolerated whenever its message holds the phrase
      anywhere, as Python's `in` finds it. */
  lemma DeleteToleratesGoneServer(p: Params, vmId: string, o: Oracle, i: nat)
    requires o.fault(DeleteServer(vmId)).Some?
    requires var m := o.fault(DeleteServer(vmId)).value.message;
      i + |AlreadyDeleted| <= |m| && m[i..i + |AlreadyDeleted|] == AlreadyDeleted
    ensures Delete(p, vmId, o).res.Ok?
  {
    ContainsAt(o.fault(DeleteServer(vmId)).value.message, AlreadyDeleted, i);
  }

  // ---------------------------------------------------------------------
  // Reconciling an existing VM

  /** A rename is due: a name is given and differs from the VM's. */
  predicate NeedsRename(p: Params, vm: Vm) {
    Truthy(p.name) && p.name.value != vm.name
  }

  /** A private-network port is due: a network is given and the VM has no
      address on it. */
  predicate NeedsNetwork(p: Params, vm: Vm) {
    Truthy(p.privNetId) && p.privNetId.value !in vm.addresses
  }

  /** The VM's attached IPv4 addresses (`ip4s`), unset ones skipped. */
  function Ip4s(vm: Vm): (ips: seq<string>)
    ensures forall a :: a in ips <==> exists i :: 0 <= i < |vm.attachments| && vm.attachments[i].ipv4 == Some(a) && a != ""
  {
    Ip4sOf(vm.attachments)
  }

  function Ip4sOf(atts: seq<Attachment>): (ips: seq<string>)
    ensures forall a :: a in ips <==> exists i :: 0 <= i < |atts| && atts[i].ipv4 == Some(a) && a != ""
  {
    if atts == [] then []
    else
      var rest := Ip4sOf(atts[1..]);
      assert forall i :: 1 <= i < |atts| ==> atts[i] == atts[1..][i - 1];
      if Truthy(atts[0].ipv4) then [atts[0].ipv4.value] + rest else rest
  }

  function Rename(p: Params, vm: Vm, o: Oracle): (r: Step<bool>)
    ensures !r.res.Abort?
    ensures Mutations(r.calls) == r.calls
    ensures NeedsRename(p, vm) ==>
      && r.calls == [UpdateServerName(vm.id, p.name.value)]
      && (r.res.Ok? <==> o.fault(UpdateServerName(vm.id, p.name.value)).None?)
    ensures r.res.Err? ==> r.res.msg == "Failed to changed server name"
    ensures !NeedsRename(p, vm) ==> r == Step(Ok(false), [])
    ensures r.res.Ok? ==> r.res.value == NeedsRename(p, vm)
  {
    if NeedsRename(p, vm) then
      var call := UpdateServerName(vm.id, p.name.value);
      match o.fault(call)
      case Some(e) => Step(Err("Failed to changed server name", e.message), [call])
      case None => Step(Ok(true), [call])
    else Step(Ok(false), [])
  }

  /** A `create_port`, then the optional port wait, whose failure is
      swallowed. */
  function PortThenWait(call: Call, wait: bool, o: Oracle, msg: string): (r: Step<()>)
    requires call.CreatePort?
    ensures !r.res.Abort? && Mutations(r.calls) == [call] && r.calls[0] == call
    ensures r.res.Ok? <==> o.fault(call).None?
    ensures r.res.Ok? && wait ==> r.calls == [call, WaitPortUntil(o.newPortId(call), "ACTIVE")]
    ensures !(r.res.Ok? && wait) ==> r.calls == [call]
  {
    match o.fault(call)
    case Some(e) => Step(Err(msg, e.message), [call])
    case None =>
      var waits := WaitIf(wait, WaitPortUntil(o.newPortId(call), "ACTIVE"));
      MutationsAppend([call], waits);
      Step(Ok(()), [call] + waits)
  }

  function ConnectNetwork(p: Params, vm: Vm, o: Oracle): (r: Step<bool>)
    ensures !r.res.Abort?
    ensures NeedsNetwork(p, vm) ==>
      var c := CreatePort(p.privNetId.value, vm.id, None);
      && Mutations(r.calls) == [c]
      && (r.res.Ok? <==> o.fault(c).None?)
      && (r.res.Ok? && p.wait ==> r.calls == [c, WaitPortUntil(o.newPortId(c), "ACTIVE")])
    ensures !NeedsNetwork(p, vm) ==> r == Step(Ok(false), [])
    ensures r.res.Ok? ==> r.res.value == NeedsNetwork(p, vm)
  {
    if NeedsNetwork(p, vm) then
      var s := PortThenWait(CreatePort(p.privNetId.value, vm.id, None), p.wait, o,
                            "Failed to connect server to network");
      Step(if s.res.Ok? then Ok(true) else Err(s.res.msg, s.res.details), s.calls)
    else Step(Ok(false), [])
  }

  /** The IP port is due: the floating IP is not among the VM's IPv4s. */
  predicate NeedsIp(ip: FloatingIp, vm: Vm) {
    ip.address !in Ip4s(vm)
  }

  function IpPort(ip: FloatingIp, vm: Vm): Call {
    CreatePort(ip.floatingNetworkId, vm.id, Some(ip.address))
  }

  function AttachIp(p: Params, vm: Vm, snap: Snapshot, o: Oracle): (r: Step<bool>)
    ensures !r.res.Abort?
    ensures var d := DiscoverIp(p, snap, o);
      && (d.res.Err? ==> r.res.Err? && Mutations(r.calls) == [])
      && (d.res == Ok(None) ==> r.res == Ok(false) && Mutations(r.calls) == [])
      && (d.res.Ok? && d.res.value.Some? ==>
            var ip := d.res.value.value;
            && (NeedsIp(ip, vm) ==>
                  && Mutations(r.calls) == [IpPort(ip, vm)]
                  && (r.res.Ok? <==> o.fault(IpPort(ip, vm)).None?))
            && (!NeedsIp(ip, vm) ==> r.res == Ok(false) && Mutations(r.calls) == []))
    ensures r.res.Ok? ==> (r.res.value <==> Mutations(r.calls) != [])
  {
    var d := DiscoverIp(p, snap, o);
    match d.res
    case Err(m, det) => Step(Err(m, det), d.calls)
    case Abort(x) => Step(Abort(x), d.calls)
    case Ok(None) => Step(Ok(false), d.calls)
    case Ok(Some(ip)) =>
      if NeedsIp(ip, vm) then
        var s := PortThenWait(IpPort(ip, vm), p.wait, o, "Failed to attach IP to server");
        MutationsAppend(d.calls, s.calls);
        Step(if s.res.Ok? then Ok(true) else Err(s.res.msg, s.res.details), d.calls + s.calls)
      else Step(Ok(false), d.calls)
  }

  /** The three steps of `present` on an existing VM, in order, stopping at
      the first failure. */
  datatype Steps = Steps(rename: Step<bool>, network: Step<bool>, ip: Step<bool>)

  function ReconcileSteps(p: Params, vm: Vm, snap: Snapshot, o: Oracle): Steps {
    Steps(Rename(p, vm, o), ConnectNetwork(p, vm, o), AttachIp(p, vm, snap, o))
  }

  /** Runs the steps; `changed` is computed from what the rename, the
      network port and the IP port did. */
  function RunSteps(s: Steps, vm: Vm, changed: (bool, bool, bool) -> bool): (r: Run<Vm>)
    ensures !r.out.Crash? || s.rename.res.Abort? || s.network.res.Abort? || s.ip.res.Abort?
    ensures r.out.Exit? <==> s.rename.res.Ok? && s.network.res.Ok? && s.ip.res.Ok?
    ensures !s.rename.res.Ok? ==> r.calls == s.rename.calls
    ensures s.rename.res.Ok? && !s.network.res.Ok? ==> r.calls == s.rename.calls + s.network.calls
    ensures s.rename.res.Ok? && s.network.res.Ok? ==> r.calls == s.rename.calls + s.network.calls + s.ip.calls
    ensures r.out.Exit? ==>
      && r.out == Exit(changed(s.rename.res.value, s.network.res.value, s.ip.res.value), vm)
  {
    if !s.rename.res.Ok? then Halt(s.rename)
    else if !s.network.res.Ok? then After(s.rename.calls, Halt(s.network))
    else if !s.ip.res.Ok? then After(s.rename.calls + s.network.calls, Halt(s.ip))
    else Run(Exit(changed(s.rename.res.value, s.network.res.value, s.ip.res.value), vm),
             s.rename.calls + s.network.calls + s.ip.calls)
  }

  /** The calls `present` issues on an existing VM, in order: a rename if
      due, a private-network port if due, an IP port if the IP is found and
      not yet attached. */
  function UpdateMutations(p: Params, vm: Vm, ip: Option<FloatingIp>): seq<Call> {
    (if NeedsRename(p, vm) then [UpdateServerName(vm.id, p.name.value)] else [])
    + (if NeedsNetwork(p, vm) then [CreatePort(p.privNetId.value, vm.id, None)] else [])
    + (if ip.Some? && NeedsIp(ip.value, vm) then [IpPort(ip.value, vm)] else [])
  }

  /** `present` on an existing VM: when every step succeeds, exactly the
      due calls were issued, and `changed` sees which of them were due. */
  function Reconcile(p: Params, vm: Vm, snap: Snapshot, o: Oracle,
                     changed: (bool, bool, bool) -> bool): (r: Run<Vm>)
    ensures !r.out.Crash?
    ensures var s := ReconcileSteps(p, vm, snap, o);
      r.out.Exit? <==> s.rename.res.Ok? && s.network.res.Ok? && s.ip.res.Ok?
    ensures var d := DiscoverIp(p, snap, o);
      Mutations(r.calls) <= UpdateMutations(p, vm, if d.res.Ok? then d.res.value else None)
    ensures AnsweredBeforeLast(Mutations(r.calls), o)
    ensures r.out.Exit? ==>
      var d := DiscoverIp(p, snap, o);
      && d.res.Ok?
      && Mutations(r.calls) == UpdateMutations(p, vm, d.res.value)
      && r.out == Exit(changed(NeedsRename(p, vm), NeedsNetwork(p, vm),
                               d.res.value.Some? && NeedsIp(d.res.value.value, vm)), vm)
  {
    var s := ReconcileSteps(p, vm, snap, o);
    MutationsAppend(s.rename.calls, s.network.calls);
    MutationsAppend(s.rename.calls + s.network.calls, s.ip.calls);
    StepsStopAtFailure(p, vm, snap, o, changed);
    RunSteps(s, vm, changed)
  }

  /** Every call of `m` answered. */
  predicate Answered(m: seq<Call>, o: Oracle) {
    forall i :: 0 <= i < |m| ==> o.fault(m[i]).None?
  }

  /** Every call of `m` before its last one answered. */
  predicate AnsweredBeforeLast(m: seq<Call>, o: Oracle) {
    forall i :: 0 <= i < |m| - 1 ==> o.fault(m[i]).None?
  }

  /** Each step issues at most its one due mutating call, which answered
      when the step succeeded. */
  lemma StepMutationsDue(p: Params, vm: Vm, snap: Snapshot, o: Oracle)
    ensures var s := ReconcileSteps(p, vm, snap, o);
      var d := DiscoverIp(p, snap, o);
      && Mutations(s.rename.calls) == (if NeedsRename(p, vm) then [UpdateServerName(vm.id, p.name.value)] else [])
      && Mutations(s.network.calls) == (if NeedsNetwork(p, vm) then [CreatePort(p.privNetId.value, vm.id, None)] else [])
      && Mutations(s.ip.calls) ==
           (if d.res.Ok? && d.res.value.Some? && NeedsIp(d.res.value.value, vm) then [IpPort(d.res.value.value, vm)] else [])
      && (s.rename.res.Ok? ==> Answered(Mutations(s.rename.calls), o))
      && (s.network.res.Ok? ==> Answered(Mutations(s.network.calls), o))
      && UpdateMutations(p, vm, if d.res.Ok? then d.res.value else None) ==
           Mutations(s.rename.calls) + Mutations(s.network.calls) + Mutations(s.ip.calls)
  {
  }

  /** Stopping at the first failure among three steps of at most one
      mutating call each leaves a prefix whose calls all answered but the
      last. */
  lemma {:induction false} StopAtFirstFailure(a: seq<Call>, b: seq<Call>, c: seq<Call>, m: seq<Call>, o: Oracle)
    requires |a| <= 1 && |b| <= 1 && |c| <= 1
    requires || m == a
             || (Answered(a, o) && m == a + b)
             || (Answered(a, o) && Answered(b, o) && m == a + b + c)
    ensures m <= a + b + c && AnsweredBeforeLast(m, o)
  {
    assert a + b + c == a + (b + c);
    if m == a + b + c && m != a && m != a + b {
      assert forall i :: |a| <= i < |a| + |b| ==> m[i] == b[i - |a|];
    }
  }

  /** The steps stop at the first failing call: what was issued is a prefix
      of the due calls, and every call before the last one answered. */
  lemma {:induction false} StepsStopAtFailure(p: Params, vm: Vm, snap: Snapshot, o: Oracle,
                                              changed: (bool, bool, bool) -> bool)
    ensures var r := RunSteps(ReconcileSteps(p, vm, snap, o), vm, changed);
      var d := DiscoverIp(p, snap, o);
      && Mutations(r.calls) <= UpdateMutations(p, vm, if d.res.Ok? then d.res.value else None)
      && AnsweredBeforeLast(Mutations(r.calls), o)
  {
    var s := ReconcileSteps(p, vm, snap, o);
    var r := RunSteps(s, vm, changed);
    var d := DiscoverIp(p, snap, o);
    var a, b, c := Mutations(s.rename.calls), Mutations(s.network.calls), Mutations(s.ip.calls);
    StepMutationsDue(p, vm, snap, o);
    MutationsAppend(s.rename.calls, s.network.calls);
    MutationsAppend(s.rename.calls + s.network.calls, s.ip.calls);
    if !s.rename.res.Ok? {
      assert Mutations(r.calls) == a;
    } else if !s.network.res.Ok? {
      assert Mutations(r.calls) == a + b;
    } else {
      assert Mutations(r.calls) == a + b + c;
    }
    StopAtFirstFailure(a, b, c, Mutations(r.calls), o);
  }

  // ---------------------------------------------------------------------
  // State functions

  /** `present`: create the VM when none is found; otherwise rename it,
      connect it to the private network and attach the floating IP as
      needed. Only the rename and the network port count as a change, and
      the VM reported is the one discovery returned. */
  function Present(p: Params, snap: Snapshot, o: Oracle): (r: Run<Vm>)
    ensures !r.out.Crash?
    ensures !Discover(p, snap, o).res.Ok? ==> r.out.Fail? && Mutations(r.calls) == []
  {
    var d := Discover(p, snap, o);
    if !d.res.Ok? then Halt(d)
    else match d.res.value
      case None =>
        var c := Create(p, snap, o);
        if !c.res.Ok? then After(d.calls, Halt(c))
        else Run(Exit(true, c.res.value), d.calls + c.calls)
      case Some(vm) =>
        After(d.calls, Reconcile(p, vm, snap, o, (a: bool, b: bool, c: bool) => a || b))
  }

  /** `present` as evidently intended: attaching the floating IP is a
      change like the other two. */
  function PresentIntended(p: Params, snap: Snapshot, o: Oracle): (r: Run<Vm>)
    ensures !r.out.Crash?
    ensures !Discover(p, snap, o).res.Ok? ==> r.out.Fail? && Mutations(r.calls) == []
    ensures r.out.Exit? ==> (r.out.changed <==> Mutations(r.calls) != [])
  {
    var d := Discover(p, snap, o);
    if !d.res.Ok? then Halt(d)
    else match d.res.value
      case None =>
        var c := Create(p, snap, o);
        MutationsAppend(d.calls, c.calls);
        if !c.res.Ok? then After(d.calls, Halt(c))
        else Run(Exit(true, c.res.value), d.calls + c.calls)
      case Some(vm) =>
        var rc := Reconcile(p, vm, snap, o, (a: bool, b: bool, c: bool) => a || b || c);
        MutationsAppend(d.calls, rc.calls);
        After(d.calls, rc)
  }

  /** A floating-IP port among the calls: a `create_port` with a fixed
      address. */
  predicate IpPortIssued(m: seq<Call>) {
    exists i :: 0 <= i < |m| && m[i].CreatePort? && m[i].fixedIp.Some?
  }

  lemma UpdateIpPortIssued(p: Params, vm: Vm, ip: Option<FloatingIp>)
    ensures IpPortIssued(UpdateMutations(p, vm, ip)) <==> ip.Some? && NeedsIp(ip.value, vm)
  {
    var m := UpdateMutations(p, vm, ip);
    if ip.Some? && NeedsIp(ip.value, vm) {
      assert m[|m| - 1] == IpPort(ip.value, vm);
    }
  }

  /** The intended `present` issues the same calls as the code and exits
      or fails alike; it reports the same VM, and `changed` differs only
      by counting an issued floating-IP port. */
  lemma PresentIntendedAgrees(p: Params, snap: Snapshot, o: Oracle)
    ensures var r := Present(p, snap, o);
      var r2 := PresentIntended(p, snap, o);
      && r2.calls == r.calls
      && (r2.out.Exit? <==> r.out.Exit?)
      && (r.out.Exit? ==>
            && r2.out.payload == r.out.payload
            && (r2.out.changed <==> r.out.changed || IpPortIssued(Mutations(r.calls))))
  {
    var d := Discover(p, snap, o);
    if d.res.Ok? && d.res.value.Some? {
      var vm := d.res.value.value;
      var s := ReconcileSteps(p, vm, snap, o);
      var rc := Reconcile(p, vm, snap, o, (a: bool, b: bool, c: bool) => a || b);
      var rc2 := Reconcile(p, vm, snap, o, (a: bool, b: bool, c: bool) => a || b || c);
      assert rc2.calls == rc.calls;
      MutationsAppend(d.calls, rc.calls);
      if rc.out.Exit? {
        var di := DiscoverIp(p, snap, o);
        UpdateIpPortIssued(p, vm, di.res.value);
        assert Mutations(d.calls) == [];
      }
    } else if d.res.Ok? {
      var c := Create(p, snap, o);
      MutationsAppend(d.calls, c.calls);
    }
  }

  /** `absent`: no VM found is no change; otherwise one delete and a
      change. */
  function Absent(p: Params, snap: Snapshot, o: Oracle): (r: Run<string>)
    ensures !r.out.Crash?
    ensures var d := Discover(p, snap, o);
      && (d.res == Ok(None) ==> r.out == Exit(false, "VM not found") && Mutations(r.calls) == [])
      && (d.res.Ok? && d.res.value.Some? ==>
            var vm := d.res.value.value;
            && Mutations(r.calls) == [DeleteServer(vm.id)]
            && (r.out.Exit? <==> Delete(p, vm.id, o).res.Ok?)
            && (r.out.Exit? ==> r.out == Exit(true, "VM is now deleted")))
      && (d.res.Err? ==> r.out.Fail? && Mutations(r.calls) == [])
    ensures r.out.Exit? ==> (r.out.changed <==> Mutations(r.calls) != [])
  {
    var d := Discover(p, snap, o);
    if !d.res.Ok? then Halt(d)
    else match d.res.value
      case None => Run(Exit(false, "VM not found"), d.calls)
      case Some(vm) =>
        var s := Delete(p, vm.id, o);
        MutationsAppend(d.calls, s.calls);
        if !s.res.Ok? then After(d.calls, Halt(s))
        else Run(Exit(true, "VM is now deleted"), d.calls + s.calls)
  }

  /** The two power states `active` and `stopped` move a VM to. */
  datatype PowerTarget = Started | Shutdown

  function TargetStatus(t: PowerTarget): string {
    match t case Started => "ACTIVE" case Shutdown => "STOPPED"
  }

  function PowerCall(t: PowerTarget, vmId: string): (c: Call)
    ensures IsMutating(c)
  {
    match t case Started => StartServer(vmId) case Shutdown => ShutdownServer(vmId)
  }

  function MissingMsg(t: PowerTarget): string {
    match t case Started => "Cannot find VM to start" case Shutdown => "Cannot find VM to stop"
  }

  function PowerFailMsg(t: PowerTarget): string {
    match t case Started => "Failed to start VM" case Shutdown => "Failed to stop VM"
  }

  /** The wait after a start or shutdown: the VM it returns, or the VM as
      discovered when it raises or is not asked for. */
  function AfterPowerWait(p: Params, vm: Vm, o: Oracle, t: PowerTarget): Vm {
    var w := WaitServerUntil(vm.id, TargetStatus(t));
    if p.wait && o.fault(w).None? then o.waitedServer(w) else vm
  }

  /** The part of `active` / `stopped` that follows a successful discovery. */
  function PowerOn(p: Params, vm: Vm, o: Oracle, t: PowerTarget): (r: Run<Vm>)
    ensures !r.out.Crash?
    ensures vm.status == TargetStatus(t) ==> r == Run(Exit(false, vm), [])
    ensures vm.status != TargetStatus(t) ==>
      && Mutations(r.calls) == [PowerCall(t, vm.id)]
      && (r.out.Exit? <==> o.fault(PowerCall(t, vm.id)).None?)
      && (r.out.Exit? ==> r.out == Exit(true, AfterPowerWait(p, vm, o, t)))
      && (r.out.Exit? && p.wait ==> r.calls == [PowerCall(t, vm.id), WaitServerUntil(vm.id, TargetStatus(t))])
      && (!(r.out.Exit? && p.wait) ==> r.calls == [PowerCall(t, vm.id)])
  {
    if vm.status == TargetStatus(t) then Run(Exit(false, vm), [])
    else
      var call := PowerCall(t, vm.id);
      match o.fault(call)
      case Some(e) => Run(Fail(PowerFailMsg(t), e.message), [call])
      case None =>
        var waits := WaitIf(p.wait, WaitServerUntil(vm.id, TargetStatus(t)));
        MutationsAppend([call], waits);
        Run(Exit(true, AfterPowerWait(p, vm, o, t)), [call] + waits)
  }

  /** `active` and `stopped`: a missing VM fails; a VM already in the
      target status is no change; otherwise one start or shutdown and a
      change, whatever the wait does. */
  function Transition(p: Params, snap: Snapshot, o: Oracle, t: PowerTarget): (r: Run<Vm>)
    ensures !r.out.Crash?
    ensures var d := Discover(p, snap, o);
      && (d.res == Ok(None) ==> r.out == Fail(MissingMsg(t), "") && Mutations(r.calls) == [])
      && (d.res.Ok? && d.res.value.Some? ==>
            var vm := d.res.value.value;
            && (vm.status == TargetStatus(t) ==> r.out == Exit(false, vm) && Mutations(r.calls) == [])
            && (vm.status != TargetStatus(t) ==>
                  && Mutations(r.calls) == [PowerCall(t, vm.id)]
                  && (r.out.Exit? <==> o.fault(PowerCall(t, vm.id)).None?)
                  && (r.out.Exit? ==> r.out == Exit(true, AfterPowerWait(p, vm, o, t)))))
      && (d.res.Err? ==> r.out.Fail? && Mutations(r.calls) == [])
    ensures r.out.Exit? ==> (r.out.changed <==> Mutations(r.calls) != [])
  {
    var d := Discover(p, snap, o);
    if !d.res.Ok? then Halt(d)
    else match d.res.value
      case None => Run(Fail(MissingMsg(t), ""), d.calls)
      case Some(vm) =>
        var s := PowerOn(p, vm, o, t);
        MutationsAppend(d.calls, s.calls);
        After(d.calls, s)
  }

  /** `active`: start the VM unless it is already `ACTIVE`. */
  function Active(p: Params, snap: Snapshot, o: Oracle): (r: Run<Vm>)
    ensures var d := Discover(p, snap, o);
      && (d.res == Ok(None) ==> r.out == Fail("Cannot find VM to start", ""))
      && (d.res.Ok? && d.res.value.Some? && d.res.value.value.status == "ACTIVE" ==>
            r.out == Exit(false, d.res.value.value) && Mutations(r.calls) == [])
      && (d.res.Ok? && d.res.value.Some? && d.res.value.value.status != "ACTIVE" ==>
            && Mutations(r.calls) == [StartServer(d.res.value.value.id)]
            && (r.out.Exit? <==> o.fault(StartServer(d.res.value.value.id)).None?)
            && (r.out.Exit? ==> r.out.changed))
  {
    Transition(p, snap, o, Started)
  }

  /** `stopped`: shut the VM down unless it is already `STOPPED`. */
  function Stopped(p: Params, snap: Snapshot, o: Oracle): (r: Run<Vm>)
    ensures var d := Discover(p, snap, o);
      && (d.res == Ok(None) ==> r.out == Fail("Cannot find VM to stop", ""))
      && (d.res.Ok? && d.res.value.Some? && d.res.value.value.status == "STOPPED" ==>
            r.out == Exit(false, d.res.value.value) && Mutations(r.calls) == [])
      && (d.res.Ok? && d.res.value.Some? && d.res.value.value.status != "STOPPED" ==>
            && Mutations(r.calls) == [ShutdownServer(d.res.value.value.id)]
            && (r.out.Exit? <==> o.fault(ShutdownServer(d.res.value.value.id)).None?)
            && (r.out.Exit? ==> r.out.changed))
  {
    Transition(p, snap, o, Shutdown)
  }

  // ---------------------------------------------------------------------
  // Properties of `present`

  /** `present` with no VM found: exactly one `create_server`, whose
      networks are the private network if given followed by the floating
      IP if found, and a reported change; the VM reported is the one the
      build wait returned, or the VM as created when that wait raised. */
  lemma PresentCreates(p: Params, snap: Snapshot, o: Oracle)
    requires Discover(p, snap, o).res == Ok(None)
    ensures var r := Present(p, snap, o);
      var d := DiscoverIp(p, snap, o);
      && (d.res.Ok? ==> Mutations(r.calls) == [CreateServer(p.name, p.imageId, p.flavorId,
                                                           p.projectId, p.sshKey, CreateNetworks(p, d.res.value))])
      && (d.res.Err? ==> r.out.Fail? && Mutations(r.calls) == [])
      && (d.res.Ok? ==>
            (r.out.Exit? <==> o.fault(CreateServer(p.name, p.imageId, p.flavorId, p.projectId, p.sshKey,
                                                   CreateNetworks(p, d.res.value))).None?))
      && (r.out.Exit? ==> r.out.changed)
      && (r.out.Exit? && (!p.wait || o.fault(WaitServerWhile(o.newServer.id, "BUILD")).Some?) ==>
            r.out.payload == o.newServer)
      && (r.out.Exit? && p.wait && o.fault(WaitServerWhile(o.newServer.id, "BUILD")).None? ==>
            r.out.payload == o.waitedServer(WaitServerWhile(o.newServer.id, "BUILD")))
  {
    var dd := Discover(p, snap, o);
    var c := Create(p, snap, o);
    MutationsAppend(dd.calls, c.calls);
  }

  /** `present` on an existing VM: it renames only when a differing name is
      given, adds a private-network port only when the VM has no address on
      that network, attaches the floating IP only when found and not yet
      among the VM's IPv4s; it reports a change exactly when it renamed or
      added the network port, and reports the VM as discovered. */
  lemma PresentUpdates(p: Params, snap: Snapshot, o: Oracle, vm: Vm)
    requires Discover(p, snap, o).res == Ok(Some(vm))
    ensures var s := ReconcileSteps(p, vm, snap, o);
      Present(p, snap, o).out.Exit? <==> s.rename.res.Ok? && s.network.res.Ok? && s.ip.res.Ok?
    ensures var d := DiscoverIp(p, snap, o);
      Mutations(Present(p, snap, o).calls) <= UpdateMutations(p, vm, if d.res.Ok? then d.res.value else None)
    ensures var r := Present(p, snap, o);
      var d := DiscoverIp(p, snap, o);
      r.out.Exit? ==>
        && d.res.Ok?
        && Mutations(r.calls) == UpdateMutations(p, vm, d.res.value)
        && r.out == Exit(NeedsRename(p, vm) || NeedsNetwork(p, vm), vm)
  {
    var dd := Discover(p, snap, o);
    var rc := Reconcile(p, vm, snap, o, (a: bool, b: bool, c: bool) => a || b);
    MutationsAppend(dd.calls, rc.calls);
  }

  /** An existing VM `web` with nothing to rename and no private network,
      and a floating IP it does not hold yet: `present` attaches the IP and
      still reports no change. */
  lemma PresentIpAttachIsNoChange()
    ensures var vm := Vm("vm-1", "web", "ACTIVE", {}, []);
      var ip := FloatingIp("ip-1", "192.0.2.7", None, "public");
      var snap := Snapshot([vm], [ip], []);
      var p := Params(None, Some("web"), None, None, None, None, Some("ip-1"), false, None);
      var r := Present(p, snap, QuietOracle());
      && r.out == Exit(false, vm)
      && Mutations(r.calls) == [CreatePort("public", "vm-1", Some("192.0.2.7"))]
      && PresentIntended(p, snap, QuietOracle()).out == Exit(true, vm)
  {
    var vm := Vm("vm-1", "web", "ACTIVE", {}, []);
    var ip := FloatingIp("ip-1", "192.0.2.7", None, "public");
    var snap := Snapshot([vm], [ip], []);
    var p := Params(None, Some("web"), None, None, None, None, Some("ip-1"), false, None);
    var o := QuietOracle();
    assert Discover(p, snap, o).res == Ok(Some(vm));
    assert DiscoverIp(p, snap, o).res == Ok(Some(ip));
    assert Ip4s(vm) == [];
    PresentUpdates(p, snap, o, vm);
  }

  // ---------------------------------------------------------------------
  // Waits never abort

  /** How a wait ends changes neither the calls issued, nor whether the run
      exits, nor the `changed` it reports. */
  ghost predicate SameDecision<T>(r1: Run<T>, r2: Run<T>) {
    && r1.calls == r2.calls
    && r1.out.Exit? == r2.out.Exit?
    && r1.out.Fail? == r2.out.Fail?
    && (r1.out.Exit? && r2.out.Exit? ==> r1.out.changed == r2.out.changed)
  }

  /** Discovery issues no wait, so how waits end does not touch it. */
  lemma DiscoveryIgnoresWaits(p: Params, snap: Snapshot, o1: Oracle, o2: Oracle)
    requires SameButWaits(o1, o2)
    ensures Discover(p, snap, o1) == Discover(p, snap, o2)
    ensures DiscoverIp(p, snap, o1) == DiscoverIp(p, snap, o2)
  {
    assert o1.fault(ListServers) == o2.fault(ListServers);
    if Truthy(p.id) {
      assert o1.fault(GetServerDetails(p.id.value)) == o2.fault(GetServerDetails(p.id.value));
    }
    if Truthy(p.publicIpId) {
      assert o1.fault(GetFloatingIpDetails(p.publicIpId.value)) == o2.fault(GetFloatingIpDetails(p.publicIpId.value));
    }
  }

  /** The port waits of `present` are issued the same way whatever they
      return. */
  lemma StepsIgnoreWaits(p: Params, vm: Vm, snap: Snapshot, o1: Oracle, o2: Oracle)
    requires SameButWaits(o1, o2)
    ensures ReconcileSteps(p, vm, snap, o1) == ReconcileSteps(p, vm, snap, o2)
  {
    if NeedsRename(p, vm) {
      assert o1.fault(UpdateServerName(vm.id, p.name.value)) == o2.fault(UpdateServerName(vm.id, p.name.value));
    }
    assert Rename(p, vm, o1) == Rename(p, vm, o2);
    ConnectIgnoresWaits(p, vm, o1, o2);
    AttachIgnoresWaits(p, vm, snap, o1, o2);
  }

  lemma ConnectIgnoresWaits(p: Params, vm: Vm, o1: Oracle, o2: Oracle)
    requires SameButWaits(o1, o2)
    ensures ConnectNetwork(p, vm, o1) == ConnectNetwork(p, vm, o2)
  {
    if NeedsNetwork(p, vm) {
      var c := CreatePort(p.privNetId.value, vm.id, None);
      assert o1.fault(c) == o2.fault(c) && o1.newPortId(c) == o2.newPortId(c);
      assert PortThenWait(c, p.wait, o1, "Failed to connect server to network")
          == PortThenWait(c, p.wait, o2, "Failed to connect server to network");
    }
  }

  lemma AttachIgnoresWaits(p: Params, vm: Vm, snap: Snapshot, o1: Oracle, o2: Oracle)
    requires SameButWaits(o1, o2)
    ensures AttachIp(p, vm, snap, o1) == AttachIp(p, vm, snap, o2)
  {
    DiscoveryIgnoresWaits(p, snap, o1, o2);
    var d := DiscoverIp(p, snap, o1);
    if d.res.Ok? && d.res.value.Some? && NeedsIp(d.res.value.value, vm) {
      var c := IpPort(d.res.value.value, vm);
      assert o1.fault(c) == o2.fault(c) && o1.newPortId(c) == o2.newPortId(c);
      assert PortThenWait(c, p.wait, o1, "Failed to attach IP to server")
          == PortThenWait(c, p.wait, o2, "Failed to attach IP to server");
    }
  }

  lemma PresentIgnoresWaits(p: Params, snap: Snapshot, o1: Oracle, o2: Oracle)
    requires SameButWaits(o1, o2)
    ensures SameDecision(Present(p, snap, o1), Present(p, snap, o2))
  {
    DiscoveryIgnoresWaits(p, snap, o1, o2);
    var d := Discover(p, snap, o1);
    if d.res.Ok? {
      match d.res.value
      case Some(vm) =>
        StepsIgnoreWaits(p, vm, snap, o1, o2);
      case None =>
        var di := DiscoverIp(p, snap, o1);
        if di.res.Ok? {
          var c := CreateServer(p.name, p.imageId, p.flavorId, p.projectId, p.sshKey, CreateNetworks(p, di.res.value));
          assert o1.fault(c) == o2.fault(c);
        }
        assert Create(p, snap, o1).calls == Create(p, snap, o2).calls;
        assert Create(p, snap, o1).res.Ok? == Create(p, snap, o2).res.Ok?;
    }
  }

  lemma AbsentIgnoresWaits(p: Params, snap: Snapshot, o1: Oracle, o2: Oracle)
    requires SameButWaits(o1, o2)
    ensures Absent(p, snap, o1) == Absent(p, snap, o2)
  {
    DiscoveryIgnoresWaits(p, snap, o1, o2);
    var d := Discover(p, snap, o1);
    if d.res.Ok? && d.res.value.Some? {
      assert o1.fault(DeleteServer(d.res.value.value.id)) == o2.fault(DeleteServer(d.res.value.value.id));
    }
  }

  lemma TransitionIgnoresWaits(p: Params, snap: Snapshot, o1: Oracle, o2: Oracle, t: PowerTarget)
    requires SameButWaits(o1, o2)
    ensures SameDecision(Transition(p, snap, o1, t), Transition(p, snap, o2, t))
  {
    DiscoveryIgnoresWaits(p, snap, o1, o2);
    var d := Discover(p, snap, o1);
    if d.res.Ok? && d.res.value.Some? {
      var vm := d.res.value.value;
      assert o1.fault(PowerCall(t, vm.id)) == o2.fault(PowerCall(t, vm.id));
    }
  }
}
